=== FILE: README.md ===
# Foodgram recipe backend — a Dafny model of its core logic

The backend is a Django REST service where users publish recipes, mark
recipes as favorites, put recipes in a shopping cart and download a
shopping list for the cart. Almost all of it is ORM declarations and
framework wiring. This project models the parts that carry logic. The
relational store is an immutable value: catalogs are maps from primary key
to record, and join tables are sequences of rows in insertion order.

- `store.dfy` (module `Store`). The records of `backend/recipes/models.py`:
  recipes, ingredients, recipe/ingredient rows with amounts, favorites and
  purchases. `Valid` is the model's invariant: `cooking_time` and `amount` lie
  in 1..32767 (`MinValueValidator(1)` on a `PositiveSmallIntegerField`),
  every foreign key resolves, and each favorite or purchase pair occurs at
  most once (the two `UniqueConstraint`s). It also models the cascading
  deletes of recipes and ingredients.
- `memberships.dfy` (module `Memberships`). The favorite and shopping-cart
  state machines of `backend/recipes/views.py`. Each has two states per
  (user, recipe) pair. The module also holds the serializer checks that
  reject a second add, and the `is_favorited` / `is_in_shopping_cart`
  fields.
- `submission.dfy` (module `Submission`). The validation a recipe
  submission goes through: `validate_ingredients`, `validate_tags`, and the
  repeat and unknown-ingredient checks at the top of
  `create_or_update_cycle`.
- `filters.dfy` (module `Filters`). The ingredient name filter: the
  parameter is stripped of surrounding whitespace, a blank value means no
  filter, and otherwise the match is a case-insensitive substring match
  (`icontains`). Also the `is_favorited` and `is_in_shopping_cart` recipe
  filters. Their parameter must first parse as a boolean; the method then
  compares the raw text with "true" and either restricts the listing or
  takes its complement.
- `shopping.dfy` (module `Shopping`). `shopping_cart_download_function`. It
  selects the cart's recipe/ingredient rows and sums them per (name, unit).
  It then folds the groups into a dictionary keyed by name, where a later
  group with a name already present replaces the earlier group's value but
  keeps its position. Finally it prints one `"{name} - {amount}, {unit}\n"`
  line per key. `decimal.dfy` (module `Decimal`) renders the amount the way
  Python prints an int.
- `wrappers.dfy` and `seqs.dfy` hold the result type and sequence helpers.

Errors are kinds, not message texts. `Validation` is a serializer
`ValidationError` (HTTP 400). `NotFound` is `get_object_or_404` finding no
row (HTTP 404). `MultipleFound` is `get_object_or_404` finding two rows,
which the ORM reports as `MultipleObjectsReturned`. On a valid store that
last case cannot happen, and `FavoritePreservesValid` and
`CartPreservesValid` prove it.

The model follows the code in these points:

- A repeated add of a favorite or cart pair is a serializer validation
  error, not a separate conflict error.
- A submitted ingredient amount below 1 is not rejected by any validator.
  The `amount` field of the nested serializer is a plain `IntegerField`.
- `RecipeIngredients` has no uniqueness constraint on (recipe, ingredient).
- The aggregation groups by (name, unit) and only then folds by name. It
  does not group by name alone.
- Adding uses the GET verb. The favorite view looks up the recipe before
  every verb. `ShoppingCartView.delete` looks up only the purchase row.
- The favorite action only tests for GET, so HEAD, which the router maps
  onto the action with GET, takes the removal branch (see Findings).
  `ShoppingCartView` lists only `get` and `delete` in `http_method_names`,
  so HEAD is refused there.
- A recipe filter value such as "True" or "2" parses as true, so the
  method runs, but it is not the text "true", so the method excludes the
  caller's recipes. A value that does not parse ("yes", or an absent
  parameter) leaves the listing whole.
- Repeated ingredients in a submission are detected by comparing whole
  entries, so one ingredient id with two amounts passes. The model keeps
  this comparison as written, next to the corrected one (see Findings).

Some source names do not match each other. The models are declared as
`Favorites` and `RecipeIngredients`, but other files import `Favorite` and
`RecipeIngredient`. The filters use related names that the models never
declare, and so does the download query's `recipe__recipes_in_cart__user`
(backend/recipes/views.py:92). The model uses the relations those names
evidently mean: `Shopping.InCart` reads the purchases table.

## Model

| member | source | states |
|---|---|---|
| Store.DeleteRecipe | backend/recipes/models.py:84-112 | unknown id is not-found and a stored id always succeeds; the recipe catalog loses exactly that entry, every recipe/ingredient, favorite and purchase row that references it is gone, and every other row keeps its exact multiplicity; the model's invariant is kept |
| Store.DeleteIngredient | backend/recipes/models.py:79-83 | unknown id is not-found and a stored id always succeeds; the catalog loses exactly that entry with every other ingredient unchanged, the recipe/ingredient rows that reference it are gone, every other row keeps its exact multiplicity, nothing else changes, and the invariant is kept |
| Memberships.ValidateNew | backend/recipes/serializers.py:38-71 | the favorite/purchase validator fails with a validation error exactly when the (user, recipe) pair is already stored, and otherwise returns the pair unchanged |
| Memberships.DeleteRow | backend/recipes/views.py:70-75 | `get_object_or_404` + `delete`: not-found exactly when the pair is absent, multiple-found exactly when it occurs twice, success when it occurs once, and then one row fewer and the pair gone from the set; never multiple-found on a duplicate-free table, which stays duplicate-free |
| Memberships.Add | backend/recipes/views.py:61-65 | validation error exactly when the pair is present; otherwise exactly that pair is appended to the table and nothing else changes |
| Memberships.Remove | backend/recipes/views.py:70-76 | not-found exactly when the pair is absent; otherwise only the table changes and loses exactly that pair |
| Memberships.Favorite | backend/recipes/views.py:47-76 | unknown recipe is not-found before any change; GET on an absent pair inserts exactly (user, recipe), on a present pair is a validation error; every other verb, HEAD included, removes exactly the pair or is not-found, and on a duplicate-free table a stored pair is always removed; all other tables unchanged |
| Memberships.FavoriteSafeHead | backend/recipes/views.py:47-76 | corrected: after the recipe lookup HEAD leaves the store unchanged, and GET and DELETE behave exactly as in the favorite action |
| Memberships.HeadRemovesFavorite | backend/recipes/views.py:58-76 | as written, HEAD on a recipe the caller has favorited deletes the favorite; the corrected action returns the store unchanged |
| Memberships.CartAdd | backend/recipes/views.py:127-148 | unknown recipe is not-found; a pair already in the cart is a validation error; otherwise exactly (user, recipe) is appended to the purchases |
| Memberships.CartRemove | backend/recipes/views.py:150-158 | not-found exactly when the pair is not in the cart (no recipe lookup); on a duplicate-free table a stored pair is always removed; otherwise only the purchases change and lose exactly that pair |
| Memberships.IsMember | backend/recipes/serializers.py:146-160 | `is_favorited` / `is_in_shopping_cart` are false without a request or for an anonymous caller, otherwise membership of (user, recipe) in the table |
| Memberships.FavoritePreservesValid | backend/recipes/models.py:97-107 | favorite add/remove keep the model's invariant (favorites unique per pair) and never end in multiple-found |
| Memberships.CartPreservesValid | backend/recipes/models.py:110-120 | cart add/remove keep the model's invariant (purchases unique per pair) and removal never ends in multiple-found |
| Memberships.AddThenRemove | backend/recipes/views.py:61-76 | adding an absent pair and removing it again yields the original store exactly |
| Memberships.FavoriteRoundTrip | backend/recipes/views.py:51-76 | after a successful favorite add, DELETE restores the store and a second GET is a validation error |
| Memberships.CartRoundTrip | backend/recipes/views.py:127-158 | after a successful cart add, delete restores the store and a second add is a validation error |
| Memberships.IsMemberFollowsTransitions | backend/recipes/serializers.py:146-160 | the membership fields report true for the caller right after an add and false right after a remove |
| Submission.ValidateIngredients | backend/recipes/serializers.py:162-168 | validation error exactly for an empty ingredient list; a non-empty list passes unchanged |
| Submission.ValidateTagsAsWritten | backend/recipes/serializers.py:170-175 | validation error exactly for an empty tag list; a non-empty list validates to None (the method returns nothing) |
| Submission.ValidateTags | backend/recipes/serializers.py:170-175 | corrected: validation error exactly for an empty tag list, a non-empty list validates to itself |
| Submission.ValidateTagsAsWrittenDropsTags | backend/recipes/serializers.py:170-175 | the one-tag list [7] validates to None as written and to [7] when corrected |
| Submission.CheckFrom | backend/recipes/serializers.py:188-200 | from position i, passes exactly when no later entry is a repeat or unknown; otherwise the first such entry decides the error, a repeat (checked first) giving validation error and an unknown id not-found |
| Submission.CheckEntries | backend/recipes/serializers.py:188-200 | the loop's checks (lines 190-200) pass exactly when no entry is rejected; a failure carries the error of the first rejected entry (validation error for a repeat, not-found for an unknown id) |
| Submission.SameEntryPassesIff | backend/recipes/serializers.py:188-200 | as written, the loop's checks (lines 190-200) pass exactly when no entry (id and amount) occurs twice and every id is in the ingredient catalog |
| Submission.SameIngredientPassesIff | backend/recipes/serializers.py:188-200 | corrected, the loop's checks (lines 190-200) pass exactly when the ingredient ids are pairwise distinct and all in the catalog |
| Submission.SameEntryAdmitsRepeatedIngredient | backend/recipes/serializers.py:190-195 | a known ingredient listed twice with two different amounts, such as [(1, 2), (1, 3)], passes the check as written and is a validation error under the corrected check |
| Submission.ValidateSubmission | backend/recipes/serializers.py:162-200 | corrected (tag list returned, repeats compared by ingredient id): a submission is accepted exactly when both lists are non-empty, the ingredient ids are distinct and all known; empty lists are validation errors; with both lists non-empty a failure is the error of the first rejected entry |
| Submission.FirstRejectionKinds | backend/recipes/serializers.py:188-200 | the first rejected entry under the corrected check is a validation error when it repeats an earlier id and not-found otherwise, and a submission with non-empty lists fails with exactly that error |
| Filters.FoldChar | backend/recipes/filters.py:8-11 | folding yields no capital letter, leaves non-capitals alone and maps A-Z, А-Я, Ё to their lower-case letters |
| Filters.IContains | backend/recipes/filters.py:8-11 | the search answers true exactly when the query occurs at some position of the name, letter by letter up to case |
| Filters.Strip | backend/recipes/filters.py:8-11 | the form field's stripping: the result is empty exactly when the text is all whitespace, has no whitespace at either end, and is the text with whitespace padding removed |
| Filters.NameQuery | backend/recipes/filters.py:8-11 | the form field's cleaned value: no query exactly when the parameter is absent or blank; otherwise the query is the stripped, non-empty parameter (the null-character check is made by `Filters.NameFilter`) |
| Filters.StripPadded | backend/recipes/filters.py:8-11 | padding a text that has no whitespace at its ends with whitespace on both sides strips back to the text |
| Filters.NameFilter | backend/recipes/filters.py:8-11 | a validation error (HTTP 400) exactly when the stripped parameter holds a null character; otherwise an absent or blank parameter keeps the listing, and any other keeps exactly the ingredients whose name contains the stripped query case-insensitively, in listing order |
| Filters.EmptyQueryKeepsListing | backend/recipes/filters.py:8-11 | the lookup with the empty query keeps the whole listing, so skipping the lookup for a blank parameter gives the same result as running it |
| Filters.QueryCaseIrrelevant | backend/recipes/filters.py:8-11 | two queries that agree up to case select the same names |
| Filters.ParseBool | backend/recipes/filters.py:26-31 | the boolean filter's reading of the raw value: "true", "True", "2" are true, "false", "False", "3" are false, anything else is no value |
| Filters.MembershipFilter | backend/recipes/filters.py:26-51 | an absent parameter or one that does not parse as a boolean keeps the listing; otherwise a recipe is kept exactly when it is in the listing and its membership for the caller equals (raw value == "true") |
| Filters.FavoriteFilter | backend/recipes/filters.py:26-40 | a non-boolean or absent value keeps the listing; "true" restricts it to the caller's favorites; any other boolean value removes them |
| Filters.CartFilter | backend/recipes/filters.py:29-51 | a non-boolean or absent value keeps the listing; "true" restricts it to the caller's cart; any other boolean value removes it |
| Filters.FilterPartition | backend/recipes/filters.py:33-51 | for each flag, the "true" result and the result for any other boolean value are disjoint and together the whole listing |
| Filters.ParsedTrueStillExcludes | backend/recipes/filters.py:37-40 | "True" and "2" parse as true, yet the favorite filter then removes the caller's favorites, just as "false" does |
| Filters.AnonymousFilter | backend/recipes/filters.py:33-51 | an anonymous caller (user id None) gets no recipe for "true" and the whole listing for any other value |
| Decimal.NatToString | backend/recipes/views.py:111-113 | the amount renders as a non-empty digit string without leading zeros |
| Decimal.ParseNatToString | backend/recipes/views.py:111-113 | reading the rendered digits back gives the amount |
| Decimal.NatToStringInjective | backend/recipes/views.py:111-113 | different amounts render differently |
| Shopping.CartRows | backend/recipes/views.py:91-93 | a row is selected exactly when its recipe exists and is in the user's cart and its ingredient exists, with its multiplicity in the table kept |
| Shopping.CartRowsIsFilter | backend/recipes/views.py:91-93 | the selected rows are the table filtered by the cart condition, in table order |
| Shopping.AddTo | backend/recipes/views.py:96-98 | adding a row's amount: its key's group grows by the amount, every other group is unchanged, a new key opens a group at the end, keys stay distinct |
| Shopping.GroupSumMatchesSpec | backend/recipes/views.py:96-98 | the aggregate has one group per distinct (name, unit) key in order of first appearance, carrying the sum of that key's amounts |
| Shopping.CartTriplesTotal | backend/recipes/views.py:91-98 | the summed amount for a key equals the sum of `amount` over the rows whose recipe is in the user's cart and whose ingredient has that name and unit |
| Shopping.CartKeysFromRows | backend/recipes/views.py:91-98 | a (name, unit) key is grouped exactly when some selected row has it |
| Shopping.CartTriplesOfCartRows | backend/recipes/views.py:91-93 | dropping unselected rows before the query gives the same query rows |
| Shopping.LastNamed | backend/recipes/views.py:100-107 | the position found holds the name and no later position does |
| Shopping.Upsert | backend/recipes/views.py:104-107 | a new name is appended; a present name keeps its position and takes the new value; names stay distinct |
| Shopping.BuyingListMatchesSpec | backend/recipes/views.py:100-107 | the dictionary has one item per distinct name in order of first appearance, holding the amount and unit of the last group with that name |
| Shopping.SameNameLaterGroupWins | backend/recipes/views.py:100-107 | groups (salt, g), (pepper, g), (salt, tsp) give items salt (tsp amount) then pepper |
| Shopping.FormatLine | backend/recipes/views.py:111-113 | the line is the name, " - ", the amount's digits (which read back as the amount), ", ", the unit and a line break |
| Shopping.ShoppingListSpec | backend/recipes/views.py:89-114 | one line per distinct cart ingredient name, names distinct, in first-appearance order; the line for a name carries the unit of its last (name, unit) group and the row sum for that name and unit |
| Shopping.CartNamesFirstAppearance | backend/recipes/views.py:91-107 | grouping by (name, unit) and then folding by name lists the names in order of their first appearance among the cart's query rows, as folding the rows by name directly would |
| Shopping.CartNamesFromRows | backend/recipes/views.py:91-107 | a name gets a line exactly when some row of a recipe in the user's cart names an ingredient with that name |
| Shopping.OnlyCartRowsCount | backend/recipes/views.py:91-93 | rows of recipes outside the user's cart contribute nothing: removing them leaves the download unchanged |
| Shopping.FormatLineBreaks | backend/recipes/views.py:111-114 | a line holds exactly one line break when name and unit hold none |
| Shopping.DocumentBreaks | backend/recipes/views.py:115 | the response body of lines with one break each has as many breaks as lines |
| Shopping.DocumentLineCount | backend/recipes/views.py:109-115 | when no ingredient name or unit holds a line break, the text has exactly one line per distinct cart ingredient name |
| Shopping.CartExample | backend/recipes/views.py:89-114 | cart with recipe 1 (flour 200 g) and recipe 2 (flour 100 g, sugar 50 g) downloads "flour - 300, g" then "sugar - 50, g" |

## Findings

| source | as written | input that shows it | evidently intended | confidence | as-written member | corrected member |
|---|---|---|---|---|---|---|
| backend/recipes/serializers.py:170-175 | `validate_tags` ends without `return`, so DRF stores None as the validated `tags` and `recipe.tags.set(None)` in `create`/`update` fails | tags [7] | return the tag list | high that None is handed on, not executed | Submission.ValidateTagsAsWritten | Submission.ValidateSubmission |
| backend/recipes/views.py:47-76 | the action tests only `request.method == 'GET'`, and the router maps HEAD onto the action, so HEAD takes the removal branch | HEAD on the favorite URL of recipe 1, for a user who has favorited recipe 1 deletes the favorite | HEAD reads without changing the favorites | medium, not executed | Memberships.HeadRemovesFavorite | Memberships.FavoriteSafeHead |
| backend/recipes/serializers.py:190-195 | the repeat check compares whole entries (id and amount) | ingredients [(1, 2), (1, 3)] pass the repeat check of the loop; through the API the loop never gets this far (see the `Submission.CheckFrom` line under Left out), so the model states the loop's logic on single-id entries | reject a second entry for the same ingredient id ("ingredients must not repeat") | medium, not executed | Submission.SameEntryAdmitsRepeatedIngredient | Submission.SameIngredientPassesIff |

`Submission.ValidateSubmission` uses both corrected parts. For tags it calls
`Submission.ValidateTags`, and its contract states that an accepted submission
carries its tags. `Submission.ValidateTagsAsWrittenDropsTags` shows both
validators side by side on the tag list [7]. `Submission.CheckEntries`
takes the duplicate policy as a parameter, so the as-written loop
(`SameEntry`) stays modelled next to the corrected one (`SameIngredient`).
`Memberships.FavoriteSafeHead` equals `Memberships.Favorite` on GET and
DELETE, so the validity and round-trip lemmas stated for the favorite
action hold for the corrected action on those verbs.

## Left out

- The persistence half of `create_or_update_cycle`, and `create` and `update` (backend/recipes/serializers.py:201-247). The code cannot run as written. A `values_list` queryset has no `.remove`. `create` passes `self` twice. `update` passes a queryset as the recipe. The final removal is not scoped to the recipe. The writes are not separated from the checks: `create` (lines 222-225) and `update` (line 236) store the recipe before the loop runs, and inside the loop the writes at lines 202-215 run for each entry before the next entry's checks at lines 190-200. Only the checks are modelled, taken on their own.
- The follow graph (backend/users/serializers.py). That file holds unresolved merge-conflict markers, so there is no single subscribe or self-follow rule to model. backend/users/models.py only declares the user model. Email normalisation and password hashing belong to Django.
- The `tags` (slug) and `author` filters of `RecipeFilter`. They are declarative framework filters with no code of their own.
- Deleting a user, and the cascades from it. Users are not modelled.
- The Tag catalog and the read-only serializers (`TagSerializer`, `IngredientSerializer`, `ReadRecipeSerializer.get_ingredients`). They only copy fields.
- `CreateRecipeIngredientSerializer.to_representation` (backend/recipes/serializers.py:112-117). It queries every recipe/ingredient row of the ingredient across all recipes and hands that list to a serializer built without `many=True`. It runs only when a create or update response is rendered, which the code as written never reaches.
- Submission.CheckFrom: entries are modelled as (id, amount) pairs whose id is a single number, and the model states the loop's own logic on such entries. Through the API the loop is not reached in that form. The nested serializer declares `id` as `PrimaryKeyRelatedField(queryset=Ingredient.objects.all(), many=True)` (backend/recipes/serializers.py:109), so field validation inside `is_valid` turns an unknown id into a validation error, and a known id arrives as a list of ingredients. `get_object_or_404(Ingredient, id=[...])` at backend/recipes/serializers.py:198 then fails with a type error, a server error rather than a 404, on the first entry, since `get_object_or_404` only catches a missing row; so no second entry is ever checked for a repeat. `create` does not reach the loop at all: `recipe.tags.set(None)` at line 225 fails first, and line 226 passes `self` twice. Lines 202-215 run between one entry's checks and the next and can end the loop first: for entries [(1, 5), (1, 5)], with a recipe/ingredient row whose primary key is 1 and amount is 5, line 205 calls `.remove` on a `values_list` queryset and fails at the first entry, so the second entry's repeat is never seen, while `CheckEntries(SameEntry, ...)` reports it.
- Field-level deserialization of the nested ingredient serializer (the list-valued `id` above, the `amount` integer parsing). Submitted entries are taken as (id, amount) pairs.
- The `measurement_unit` exact-match filter that `IngredientFilter.Meta.fields` generates. It is a declarative framework filter with no code of its own.
- Base64 image decoding, HTTP response construction, Content-Disposition headers, admin, import/export resources, URL routing, authentication, permissions and pagination. They are framework plumbing.
- Error message texts. They are Russian strings; errors are kinds.
- Concurrency between requests. Uniqueness under races is enforced by the database.
- The migration file. It is generated schema history.
- Whether the filters are installed at all is assumed, not modelled. `RecipesViewSet` sets `filter_class` (backend/recipes/views.py:37), which older django-filter releases read and newer ones ignore in favour of `filterset_class`. `IngredientsViewSet` sets `filterset_class` but no `filter_backends` (backend/recipes/views.py:80-84), so it depends on the project's `DEFAULT_FILTER_BACKENDS`. The model assumes both filter sets are in effect.
- Shopping.GroupSumMatchesSpec: the database does not specify the order of the aggregate's groups. The model fixes it to first appearance in the recipe/ingredient table. The set of names does not depend on this choice; the line order, and the amount and unit on the line of a name with several units, do.
- Filters.IsSpace: the whitespace set is the Unicode one Python's `str.strip` uses, written out as code-point ranges; no other Unicode property is modelled.
- Filters.FoldChar: case folding covers Latin A-Z, Cyrillic А-Я and Ё only. Other scripts compare exactly. The database may fold more or fewer letters: SQLite's `LIKE` folds ASCII letters only, so there Cyrillic matching is case-sensitive.
- Shopping.ShoppingListSpec: totals are unbounded integers. The database sums small integers into a wider type, so no overflow is modelled.

=== FILE: decimal.dfy ===
/** Decimal rendering of non-negative integers, as Python's `f'{n}'` prints an int. */
module Decimal {

  predicate IsDigit(c: char) {
    '0' <= c <= '9'
  }

  predicate AllDigits(s: string) {
    forall i :: 0 <= i < |s| ==> IsDigit(s[i])
  }

  function DigitChar(d: nat): (c: char)
    requires d < 10
    ensures IsDigit(c)
  {
    ('0' as int + d) as char
  }

  function DigitValue(c: char): (d: nat)
    requires IsDigit(c)
    ensures d < 10
    ensures DigitChar(d) == c
  {
    c as int - '0' as int
  }

  /** The decimal digits of `n`, most significant first, without leading zeros. */
  function NatToString(n: nat): (s: string)
    ensures |s| >= 1
    ensures AllDigits(s)
    ensures |s| > 1 ==> s[0] != '0'
    decreases n
  {
    if n < 10 then [DigitChar(n)]
    else NatToString(n / 10) + [DigitChar(n % 10)]
  }

  /** The number a string of decimal digits denotes. */
  function ParseDigits(s: string): nat
    requires AllDigits(s)
    decreases |s|
  {
    if |s| == 0 then 0
    else ParseDigits(s[..|s| - 1]) * 10 + DigitValue(s[|s| - 1])
  }

  /** Reading the rendered digits back gives the number that was rendered. */
  lemma {:induction false} ParseNatToString(n: nat)
    ensures ParseDigits(NatToString(n)) == n
    decreases n
  {
    var s := NatToString(n);
    if n < 10 {
      assert s[..0] == [];
    } else {
      ParseNatToString(n / 10);
      assert s[..|s| - 1] == NatToString(n / 10);
      assert DigitValue(DigitChar(n % 10)) == n % 10;
    }
  }

  /** Distinct numbers are rendered as distinct strings. */
  lemma NatToStringInjective(a: nat, b: nat)
    requires NatToString(a) == NatToString(b)
    ensures a == b
  {
    ParseNatToString(a);
    ParseNatToString(b);
  }
}

=== FILE: filters.dfy ===
/** Query filters of the recipe and ingredient listings (backend/recipes/filters.py). */
module Filters {
  import opened Wrappers
  import opened Seqs
  import opened Store
  import opened Memberships

  /** The capital letters the folding lowers. */
  predicate IsUpper(c: char) {
    'A' <= c <= 'Z' || 0x410 <= c as int <= 0x42F || c as int == 0x401
  }

  /** Case folding for the case-insensitive match: Latin A-Z, Cyrillic А-Я and Ё
      map to their lower-case letters; every other character is left as it is. */
  function FoldChar(c: char): (f: char)
    ensures !IsUpper(f)
    ensures !IsUpper(c) ==> f == c
    ensures IsUpper(c) ==> f as int == (if c as int == 0x401 then 0x451 else c as int + 32)
  {
    if 'A' <= c <= 'Z' then (c as int + 32) as char
    else if 0x410 <= c as int <= 0x42F then (c as int + 32) as char
    else if c as int == 0x401 then 0x451 as char
    else c
  }

  /** `query` occurs in `text` at position `i`, compared letter by letter after folding. */
  predicate MatchesAt(text: string, query: string, i: int) {
    && 0 <= i
    && i + |query| <= |text|
    && forall k :: 0 <= k < |query| ==> FoldChar(text[i + k]) == FoldChar(query[k])
  }

  /** The `icontains` lookup: `query` is a case-insensitive substring of `text`. */
  predicate ContainsFolded(text: string, query: string) {
    exists i :: 0 <= i <= |text| - |query| && MatchesAt(text, query, i)
  }

  /** The substring search behind `icontains`, scanning the start positions left to right. */
  method IContains(text: string, query: string) returns (found: bool)
    ensures found <==> ContainsFolded(text, query)
  {
    var i := 0;
    while i + |query| <= |text|
      invariant 0 <= i
      invariant |query| <= |text| ==> i <= |text| - |query| + 1
      invariant forall j :: 0 <= j < i ==> !MatchesAt(text, query, j)
      decreases |text| - i
    {
      var k := 0;
      while k < |query| && FoldChar(text[i + k]) == FoldChar(query[k])
        invariant 0 <= k <= |query|
        invariant forall m :: 0 <= m < k ==> FoldChar(text[i + m]) == FoldChar(query[m])
      {
        k := k + 1;
      }
      if k == |query| {
        assert MatchesAt(text, query, i);
        return true;
      }
      i := i + 1;
    }
    return false;
  }

  // ---------------------------------------------------------------------------
  // The `name` parameter as the CharFilter's form field hands it on

  /** The characters Python's `str.isspace` accepts, which `str.strip` removes. */
  predicate IsSpace(c: char) {
    || 0x09 <= c as int <= 0x0D
    || 0x1C <= c as int <= 0x20
    || c as int == 0x85 || c as int == 0xA0 || c as int == 0x1680
    || 0x2000 <= c as int <= 0x200A
    || c as int == 0x2028 || c as int == 0x2029
    || c as int == 0x202F || c as int == 0x205F || c as int == 0x3000
  }

  predicate AllSpace(s: string) {
    forall i :: 0 <= i < |s| ==> IsSpace(s[i])
  }

  /** The number of blanks `s` starts with. */
  function LeadingBlanks(s: string): (n: nat)
    ensures n <= |s|
    ensures AllSpace(s[..n])
    ensures n < |s| ==> !IsSpace(s[n])
  {
    if |s| == 0 || !IsSpace(s[0]) then 0
    else
      var n := 1 + LeadingBlanks(s[1..]);
      assert s[..n] == [s[0]] + s[1..][..n - 1];
      n
  }

  /** The number of blanks `s` ends with. */
  function TrailingBlanks(s: string): (n: nat)
    ensures n <= |s|
    ensures AllSpace(s[|s| - n..])
    ensures n < |s| ==> !IsSpace(s[|s| - 1 - n])
  {
    if |s| == 0 || !IsSpace(s[|s| - 1]) then 0
    else
      var s' := s[..|s| - 1];
      var n := 1 + TrailingBlanks(s');
      assert s[|s| - n..] == s'[|s'| - (n - 1)..] + [s[|s| - 1]];
      n
  }

  /** `r` is `s` with the first `a` characters and some trailing characters cut off, all of them blanks. */
  predicate PaddedBy(s: string, r: string, a: int) {
    && 0 <= a <= |s| - |r|
    && r == s[a..a + |r|]
    && AllSpace(s[..a])
    && AllSpace(s[a + |r|..])
  }

  /** A text that is blank over its whole length starts with a blank. */
  lemma WholeSuffixBlank(s: string, n: nat)
    requires n <= |s| && AllSpace(s[|s| - n..])
    ensures n == |s| && |s| > 0 ==> IsSpace(s[0])
  {
    if n == |s| {
      assert s[|s| - n..] == s;
    }
  }

  /** Stripping leaves nothing exactly when the text is all blanks. */
  lemma StripEmptyIff(s: string, a: nat, b: nat)
    ensures a <= |s| && a == LeadingBlanks(s) && b == TrailingBlanks(s[a..]) ==>
      (a + b == |s| <==> AllSpace(s))
  {
    if a <= |s| && a == LeadingBlanks(s) && b == TrailingBlanks(s[a..]) {
      var rest := s[a..];
      WholeSuffixBlank(rest, b);
      if a < |s| {
        assert !IsSpace(s[a]) && s[a] == rest[0];
        assert b < |rest|;
        assert !AllSpace(s) by { assert !IsSpace(s[a]); }
      } else {
        assert s[..a] == s;
        assert |rest| == 0;
      }
    }
  }

  /** What is left after stripping neither starts nor ends with a blank, and the cut-off parts are blanks. */
  lemma StripShape(s: string, a: nat, b: nat)
    ensures a <= |s| && a == LeadingBlanks(s) && b == TrailingBlanks(s[a..]) ==>
      && a + b <= |s|
      && var r := s[a..|s| - b];
      && (|r| > 0 ==> !IsSpace(r[0]) && !IsSpace(r[|r| - 1]))
      && PaddedBy(s, r, a)
  {
    if a <= |s| && a == LeadingBlanks(s) && b == TrailingBlanks(s[a..]) {
      var rest := s[a..];
      var r := s[a..|s| - b];
      assert r == rest[..|rest| - b];
      assert s[a + |r|..] == rest[|rest| - b..];
      if |r| > 0 {
        assert r[0] == s[a];
        assert r[|r| - 1] == rest[|rest| - 1 - b];
      }
    }
  }

  /** `str.strip()`: `s` without its leading and trailing blanks. */
  function Strip(s: string): (r: string)
    ensures |r| == 0 <==> AllSpace(s)
    ensures |r| > 0 ==> !IsSpace(r[0]) && !IsSpace(r[|r| - 1])
    ensures exists a :: PaddedBy(s, r, a)
  {
    var a := LeadingBlanks(s);
    var b := TrailingBlanks(s[a..]);
    StripEmptyIff(s, a, b);
    StripShape(s, a, b);
    s[a..|s| - b]
  }

  /** The value the `name` filter runs with: the parameter stripped of blanks,
      and no filtering at all when it is absent or blank. */
  function NameQuery(param: Option<string>): (q: Option<string>)
    ensures q.None? <==> param.None? || AllSpace(param.value)
    ensures q.Some? ==> q.value == Strip(param.value) && |q.value| > 0
  {
    if param.None? then None
    else
      var v := Strip(param.value);
      if |v| == 0 then None else Some(v)
  }

  lemma {:induction false} LeadingBlanksOf(pre: string, u: string)
    requires AllSpace(pre)
    requires |u| > 0 ==> !IsSpace(u[0])
    ensures LeadingBlanks(pre + u) == |pre|
    decreases |pre|
  {
    if |pre| > 0 {
      assert (pre + u)[1..] == pre[1..] + u;
      LeadingBlanksOf(pre[1..], u);
    } else {
      assert pre + u == u;
    }
  }

  lemma {:induction false} TrailingBlanksOf(u: string, post: string)
    requires AllSpace(post)
    requires |u| > 0 ==> !IsSpace(u[|u| - 1])
    ensures TrailingBlanks(u + post) == |post|
    decreases |post|
  {
    if |post| > 0 {
      var t := u + post;
      assert t[..|t| - 1] == u + post[..|post| - 1];
      TrailingBlanksOf(u, post[..|post| - 1]);
    } else {
      assert u + post == u;
    }
  }

  /** Stripping drops exactly the blank padding around a text that neither starts nor ends with a blank. */
  lemma StripPadded(pre: string, s: string, post: string)
    requires AllSpace(pre) && AllSpace(post)
    requires |s| > 0 ==> !IsSpace(s[0]) && !IsSpace(s[|s| - 1])
    ensures Strip(pre + s + post) == s
  {
    var t := pre + s + post;
    if |s| == 0 {
      assert AllSpace(t) by {
        forall i | 0 <= i < |t| ensures IsSpace(t[i]) {
          if i < |pre| { assert t[i] == pre[i]; } else { assert t[i] == post[i - |pre|]; }
        }
      }
    } else {
      assert t == pre + (s + post);
      LeadingBlanksOf(pre, s + post);
      assert t[|pre|..] == s + post;
      TrailingBlanksOf(s, post);
    }
  }

  /** The ingredients whose name contains `q`, ignoring case. */
  function NameMatch(q: string): Ingredient -> bool {
    (x: Ingredient) => ContainsFolded(x.name, q)
  }

  /** The `icontains` lookup over a listing: the ingredients whose name contains
      `q` up to case, in listing order. */
  method KeepMatching(listing: seq<Ingredient>, q: string) returns (kept: seq<Ingredient>)
    ensures kept == Keep(listing, NameMatch(q))
  {
    kept := [];
    var i := 0;
    while i < |listing|
      invariant 0 <= i <= |listing|
      invariant kept == Keep(listing[..i], NameMatch(q))
    {
      var hit := IContains(listing[i].name, q);
      assert hit == NameMatch(q)(listing[i]);
      KeepSnoc(listing[..i], listing[i], NameMatch(q));
      assert listing[..i + 1] == listing[..i] + [listing[i]];
      if hit {
        kept := kept + [listing[i]];
      }
      i := i + 1;
    }
    assert listing[..i] == listing;
  }

  /** The form field's `ProhibitNullCharactersValidator`: it runs on the stripped
      value, and a value holding a null character makes the filter form invalid. */
  predicate HoldsNull(param: Option<string>) {
    param.Some? && '\0' in Strip(param.value)
  }

  /** `IngredientFilter.name`: the parameter is stripped first; a null character in
      it is a validation error (HTTP 400); when it is absent or blank the listing is
      returned whole, otherwise exactly the ingredients whose name contains the
      stripped query, ignoring case, in listing order. */
  method NameFilter(listing: seq<Ingredient>, param: Option<string>) returns (r: Result<seq<Ingredient>>)
    ensures r.Err? <==> HoldsNull(param)
    ensures r.Err? ==> r.error == Validation
    ensures r.Ok? && NameQuery(param).None? ==> r.value == listing
    ensures r.Ok? && NameQuery(param).Some? ==> r.value == Keep(listing, NameMatch(NameQuery(param).value))
    ensures r.Ok? && NameQuery(param).Some? ==>
      forall x :: x in r.value <==> x in listing && ContainsFolded(x.name, Strip(param.value))
  {
    if HoldsNull(param) {
      return Err(Validation);
    }
    var query := NameQuery(param);
    if query.None? {
      return Ok(listing);
    }
    var kept := KeepMatching(listing, query.value);
    return Ok(kept);
  }

  /** The lookup with the empty query would keep the whole listing, which is what the
      filter does for an absent or blank parameter, where it skips the lookup. */
  lemma {:induction false} EmptyQueryKeepsListing(listing: seq<Ingredient>)
    ensures Keep(listing, NameMatch("")) == listing
  {
    if |listing| > 0 {
      assert MatchesAt(listing[0].name, "", 0);
      assert NameMatch("")(listing[0]);
      EmptyQueryKeepsListing(listing[1..]);
      assert listing == [listing[0]] + listing[1..];
    }
  }

  /** Only the folded form of the query matters: upper- and lower-case spellings select the same ingredients. */
  lemma QueryCaseIrrelevant(text: string, query: string, other: string)
    requires |other| == |query|
    requires forall k :: 0 <= k < |query| ==> FoldChar(other[k]) == FoldChar(query[k])
    ensures ContainsFolded(text, query) <==> ContainsFolded(text, other)
  {
    if ContainsFolded(text, query) {
      var i :| 0 <= i <= |text| - |query| && MatchesAt(text, query, i);
      assert MatchesAt(text, other, i);
    }
    if ContainsFolded(text, other) {
      var i :| 0 <= i <= |text| - |other| && MatchesAt(text, other, i);
      assert MatchesAt(text, query, i);
    }
  }

  // ---------------------------------------------------------------------------
  // The `is_favorited` and `is_in_shopping_cart` parameters

  /** How the BooleanFilter's `NullBooleanSelect` reads the parameter text: only
      these six texts give a value; any other text, like no parameter, gives none. */
  function ParseBool(raw: string): (b: Option<bool>)
    ensures b.Some? <==> raw in ["true", "True", "2", "false", "False", "3"]
    ensures b == Some(true) <==> raw in ["true", "True", "2"]
  {
    if raw == "true" || raw == "True" || raw == "2" then Some(true)
    else if raw == "false" || raw == "False" || raw == "3" then Some(false)
    else None
  }

  /** The filter method runs: the parameter is present and reads as a boolean. */
  predicate Applies(flag: Option<string>) {
    flag.Some? && ParseBool(flag.value).Some?
  }

  /** `get_favorite` (rel = Favorites) and `get_in_shopping_cart` (rel = Purchases).
      The method only runs when the parameter reads as a boolean; it then compares
      the raw text with "true": exactly that text keeps the recipes the caller holds
      in the table, and the other five boolean texts keep the ones the caller does
      not hold. */
  function MembershipFilter(db: Db, rel: Relation, caller: Caller, flag: Option<string>, qs: set<RecipeId>): (r: set<RecipeId>)
    ensures !Applies(flag) ==> r == qs
    ensures Applies(flag) ==>
      forall id :: id in r <==> id in qs && (IsMember(db, rel, Some(caller), id) <==> flag.value == "true")
    ensures r <= qs
  {
    if !Applies(flag) then qs
    else
      var mine := RecipesOf(Table(db, rel), CallerId(caller));
      if flag.value == "true" then qs * mine else qs - mine
  }

  /** `RecipeFilter.get_favorite`. */
  function FavoriteFilter(db: Db, caller: Caller, flag: Option<string>, qs: set<RecipeId>): (r: set<RecipeId>)
    ensures !Applies(flag) ==> r == qs
    ensures flag == Some("true") ==> forall id :: id in r <==> id in qs && IsMember(db, Favorites, Some(caller), id)
    ensures Applies(flag) && flag != Some("true") ==>
      forall id :: id in r <==> id in qs && !IsMember(db, Favorites, Some(caller), id)
  {
    MembershipFilter(db, Favorites, caller, flag, qs)
  }

  /** `RecipeFilter.get_in_shopping_cart`. */
  function CartFilter(db: Db, caller: Caller, flag: Option<string>, qs: set<RecipeId>): (r: set<RecipeId>)
    ensures !Applies(flag) ==> r == qs
    ensures flag == Some("true") ==> forall id :: id in r <==> id in qs && IsMember(db, Purchases, Some(caller), id)
    ensures Applies(flag) && flag != Some("true") ==>
      forall id :: id in r <==> id in qs && !IsMember(db, Purchases, Some(caller), id)
  {
    MembershipFilter(db, Purchases, caller, flag, qs)
  }

  /** For either parameter, "true" and any other boolean text split the listing
      into two disjoint parts that together make up all of it. */
  lemma FilterPartition(db: Db, rel: Relation, caller: Caller, other: string, qs: set<RecipeId>)
    requires ParseBool(other).Some? && other != "true"
    ensures MembershipFilter(db, rel, caller, Some("true"), qs) + MembershipFilter(db, rel, caller, Some(other), qs) == qs
    ensures MembershipFilter(db, rel, caller, Some("true"), qs) * MembershipFilter(db, rel, caller, Some(other), qs) == {}
  {
    var a := MembershipFilter(db, rel, caller, Some("true"), qs);
    var b := MembershipFilter(db, rel, caller, Some(other), qs);
    assert forall id :: id in a + b <==> id in qs;
    assert forall id :: id !in a * b;
  }

  /** "True" and "2" read as true, yet the method compares the raw text with "true"
      and so removes the caller's recipes instead of keeping only them. */
  lemma ParsedTrueStillExcludes(db: Db, rel: Relation, caller: Caller, qs: set<RecipeId>)
    ensures ParseBool("True") == Some(true) && ParseBool("2") == Some(true)
    ensures forall id :: id in MembershipFilter(db, rel, caller, Some("True"), qs) <==>
      id in qs && !IsMember(db, rel, Some(caller), id)
    ensures MembershipFilter(db, rel, caller, Some("2"), qs) == MembershipFilter(db, rel, caller, Some("True"), qs)
  {
  }

  /** An anonymous caller holds nothing: "true" yields no recipe, any other text the whole listing. */
  lemma AnonymousFilter(db: Db, rel: Relation, flag: Option<string>, qs: set<RecipeId>)
    ensures flag == Some("true") ==> MembershipFilter(db, rel, Anonymous, flag, qs) == {}
    ensures flag != Some("true") ==> MembershipFilter(db, rel, Anonymous, flag, qs) == qs
  {
    var r := MembershipFilter(db, rel, Anonymous, flag, qs);
    if flag == Some("true") {
      assert forall id :: id !in r;
    } else if Applies(flag) {
      assert forall id :: id in r <==> id in qs;
    }
  }
}

=== FILE: memberships.dfy ===
/** Favorites and the shopping cart: two join tables of (user, recipe) pairs,
    each pair absent or present, with add and remove transitions
    (backend/recipes/views.py, backend/recipes/serializers.py). */
module Memberships {
  import opened Wrappers
  import opened Seqs
  import opened Store

  /** Which of the two membership tables an operation works on. */
  datatype Relation = Favorites | Purchases

  /** The HTTP verbs that reach the favorite action: the two it declares, and HEAD,
      which the router maps onto the action as it does for every GET route. */
  datatype Verb = Get | Head | Delete

  /** Who sent a request: the framework's anonymous user or an authenticated one. */
  datatype Caller = Anonymous | User(id: UserId)

  function Table(db: Db, rel: Relation): seq<Membership> {
    match rel
    case Favorites => db.favorites
    case Purchases => db.purchases
  }

  function WithTable(db: Db, rel: Relation, rows: seq<Membership>): Db {
    match rel
    case Favorites => db.(favorites := rows)
    case Purchases => db.(purchases := rows)
  }

  /** The serializer check run before a pair is saved (FavoriteSerializer.validate,
      PurchaseSerializer.validate): a validation error exactly when the pair is
      already in the table, otherwise the submitted pair unchanged. */
  function ValidateNew(db: Db, rel: Relation, m: Membership): (r: Result<Membership>)
    ensures r.Err? <==> m in Members(Table(db, rel))
    ensures r.Err? ==> r.error == Validation
    ensures r.Ok? ==> r.value == m
  {
    if m in Table(db, rel) then Err(Validation) else Ok(m)
  }

  /** `get_object_or_404` on a membership table followed by `delete()` of the row it returns. */
  function DeleteRow(rows: seq<Membership>, m: Membership): (r: Result<seq<Membership>>)
    ensures r == Err(NotFound) <==> m !in rows
    ensures r == Err(MultipleFound) <==> Count(rows, m) > 1
    ensures Count(rows, m) == 1 ==> r.Ok?
    ensures r.Ok? ==> Members(r.value) == Members(rows) - {m}
    ensures r.Ok? ==> |r.value| == |rows| - 1
    ensures NoDup(rows) ==> r != Err(MultipleFound)
    ensures NoDup(rows) && r.Ok? ==> NoDup(r.value)
  {
    var n := Count(rows, m);
    CountInNoDup(rows, m);
    if n == 0 then Err(NotFound)
    else if n > 1 then Err(MultipleFound)
    else
      WithoutDropsOne(rows, m);
      Ok(Without(rows, m))
  }

  /** Deleting the only occurrence of an element shortens the sequence by one. */
  lemma {:induction false} WithoutDropsOne(rows: seq<Membership>, m: Membership)
    requires Count(rows, m) == 1
    ensures |Without(rows, m)| == |rows| - 1
  {
    if rows[0] == m {
      WithoutAbsent(rows[1..], m);
      assert Without(rows, m) == Without(rows[1..], m);
    } else {
      WithoutDropsOne(rows[1..], m);
      assert Without(rows, m) == [rows[0]] + Without(rows[1..], m);
    }
  }

  /** Validating and saving a new pair: the serializer check, then the insert of the row. */
  function Add(db: Db, rel: Relation, m: Membership): (r: Result<Db>)
    ensures r.Err? <==> m in Table(db, rel)
    ensures r.Err? ==> r.error == Validation
    ensures r.Ok? ==> r.value == WithTable(db, rel, Table(db, rel) + [m])
    ensures r.Ok? ==> Members(Table(r.value, rel)) == Members(Table(db, rel)) + {m}
  {
    var pair :- ValidateNew(db, rel, m);
    Ok(WithTable(db, rel, Table(db, rel) + [pair]))
  }

  /** Looking up the pair's row and deleting it. */
  function Remove(db: Db, rel: Relation, m: Membership): (r: Result<Db>)
    ensures r == Err(NotFound) <==> m !in Table(db, rel)
    ensures r.Ok? ==> exists rows :: r.value == WithTable(db, rel, rows) && Members(rows) == Members(Table(db, rel)) - {m}
    ensures NoDup(Table(db, rel)) ==> r.Ok? || r == Err(NotFound)
  {
    var rows :- DeleteRow(Table(db, rel), m);
    Ok(WithTable(db, rel, rows))
  }

  /** `RecipesViewSet.favorite`: the recipe is looked up first for every verb;
      GET adds the (user, recipe) favorite, and every other verb, HEAD included,
      takes the removal branch, because the view only tests for GET. */
  function Favorite(db: Db, verb: Verb, user: UserId, pk: RecipeId): (r: Result<Db>)
    ensures pk !in db.recipes ==> r == Err(NotFound)
    ensures pk in db.recipes && verb == Get ==>
      && (r.Err? <==> Membership(user, pk) in db.favorites)
      && (r.Err? ==> r.error == Validation)
      && (r.Ok? ==> r.value == db.(favorites := db.favorites + [Membership(user, pk)]))
    ensures pk in db.recipes && verb != Get ==>
      && (r == Err(NotFound) <==> Membership(user, pk) !in db.favorites)
      && (NoDup(db.favorites) ==> r.Ok? || r == Err(NotFound))
      && (r.Ok? ==> r.value == db.(favorites := r.value.favorites))
      && (r.Ok? ==> Members(r.value.favorites) == Members(db.favorites) - {Membership(user, pk)})
  {
    if pk !in db.recipes then Err(NotFound)
    else if verb == Get then Add(db, Favorites, Membership(user, pk))
    else Remove(db, Favorites, Membership(user, pk))
  }

  /** The favorite action with HEAD answered as a read: after the recipe lookup
      the store is left as it is. GET and DELETE behave as in `Favorite`. */
  function FavoriteSafeHead(db: Db, verb: Verb, user: UserId, pk: RecipeId): (r: Result<Db>)
    ensures pk !in db.recipes ==> r == Err(NotFound)
    ensures pk in db.recipes && verb == Head ==> r == Ok(db)
    ensures verb != Head ==> r == Favorite(db, verb, user, pk)
  {
    if pk !in db.recipes then Err(NotFound)
    else if verb == Head then Ok(db)
    else Favorite(db, verb, user, pk)
  }

  /** As written, a HEAD request on a favorite recipe deletes the favorite, where
      the corrected action leaves the store unchanged. */
  lemma HeadRemovesFavorite(db: Db, user: UserId, pk: RecipeId)
    requires pk in db.recipes
    requires Count(db.favorites, Membership(user, pk)) == 1
    ensures Favorite(db, Head, user, pk).Ok?
    ensures Membership(user, pk) !in Favorite(db, Head, user, pk).value.favorites
    ensures FavoriteSafeHead(db, Head, user, pk) == Ok(db)
  {
    var m := Membership(user, pk);
    assert m in db.favorites;
    var r := Favorite(db, Head, user, pk);
    assert r != Err(MultipleFound);
    assert m !in Members(r.value.favorites);
  }

  /** `ShoppingCartView.get`: the recipe is looked up, then the (user, recipe) purchase is added. */
  function CartAdd(db: Db, user: UserId, recipeId: RecipeId): (r: Result<Db>)
    ensures recipeId !in db.recipes ==> r == Err(NotFound)
    ensures recipeId in db.recipes ==>
      && (r.Err? <==> Membership(user, recipeId) in db.purchases)
      && (r.Err? ==> r.error == Validation)
      && (r.Ok? ==> r.value == db.(purchases := db.purchases + [Membership(user, recipeId)]))
  {
    if recipeId !in db.recipes then Err(NotFound)
    else Add(db, Purchases, Membership(user, recipeId))
  }

  /** `ShoppingCartView.delete`: no recipe lookup; the purchase row is looked up and deleted. */
  function CartRemove(db: Db, user: UserId, recipeId: RecipeId): (r: Result<Db>)
    ensures r == Err(NotFound) <==> Membership(user, recipeId) !in db.purchases
    ensures NoDup(db.purchases) ==> r.Ok? || r == Err(NotFound)
    ensures r.Ok? ==> r.value == db.(purchases := r.value.purchases)
    ensures r.Ok? ==> Members(r.value.purchases) == Members(db.purchases) - {Membership(user, recipeId)}
  {
    Remove(db, Purchases, Membership(user, recipeId))
  }

  /** The user id the request carries: none for the anonymous user. */
  function CallerId(c: Caller): Option<UserId> {
    match c
    case Anonymous => None
    case User(id) => Some(id)
  }

  /** `get_is_favorited` (rel = Favorites) and `get_is_in_shopping_cart` (rel = Purchases):
      false without a request or for an anonymous caller, otherwise membership of the pair. */
  function IsMember(db: Db, rel: Relation, request: Option<Caller>, recipe: RecipeId): (b: bool)
    ensures request.None? || request.value.Anonymous? ==> !b
    ensures request.Some? && request.value.User? ==>
      (b <==> Membership(request.value.id, recipe) in Members(Table(db, rel)))
  {
    match request
    case None => false
    case Some(caller) =>
      match caller
      case Anonymous => false
      case User(id) => Membership(id, recipe) in Table(db, rel)
  }

  /** Every favorite transition keeps the model's invariant, and on a valid store
      a favorite request fails only with the two errors the view reports. */
  lemma FavoritePreservesValid(db: Db, verb: Verb, user: UserId, pk: RecipeId)
    requires Valid(db)
    ensures Favorite(db, verb, user, pk).Ok? ==> Valid(Favorite(db, verb, user, pk).value)
    ensures Favorite(db, verb, user, pk) != Err(MultipleFound)
  {
    var m := Membership(user, pk);
    if pk in db.recipes && verb == Get && m !in db.favorites {
      AppendFreshNoDup(db.favorites, m);
    }
  }

  /** Every shopping-cart transition keeps the model's invariant, and on a valid
      store removal never finds two rows for one pair. */
  lemma CartPreservesValid(db: Db, user: UserId, recipeId: RecipeId)
    requires Valid(db)
    ensures CartAdd(db, user, recipeId).Ok? ==> Valid(CartAdd(db, user, recipeId).value)
    ensures CartRemove(db, user, recipeId).Ok? ==> Valid(CartRemove(db, user, recipeId).value)
    ensures CartRemove(db, user, recipeId) != Err(MultipleFound)
  {
    var m := Membership(user, recipeId);
    if recipeId in db.recipes && m !in db.purchases {
      AppendFreshNoDup(db.purchases, m);
    }
  }

  /** Adding a pair and then removing it gives back the store it started from. */
  lemma {:induction false} AddThenRemove(db: Db, rel: Relation, m: Membership)
    requires m !in Table(db, rel)
    ensures Add(db, rel, m).Ok?
    ensures Remove(Add(db, rel, m).value, rel, m) == Ok(db)
  {
    var rows := Table(db, rel) + [m];
    assert Count(rows, m) == 1 by {
      assert rows[..|rows| - 1] == Table(db, rel);
      CountAppend(Table(db, rel), [m], m);
    }
    WithoutAppended(Table(db, rel), m);
  }

  /** A favorite that was just added can be removed again, restoring the store exactly;
      a second add of the same favorite is rejected. */
  lemma FavoriteRoundTrip(db: Db, user: UserId, pk: RecipeId)
    requires Favorite(db, Get, user, pk).Ok?
    ensures Favorite(Favorite(db, Get, user, pk).value, Delete, user, pk) == Ok(db)
    ensures Favorite(Favorite(db, Get, user, pk).value, Get, user, pk) == Err(Validation)
  {
    AddThenRemove(db, Favorites, Membership(user, pk));
  }

  /** The same round trip for the shopping cart. */
  lemma CartRoundTrip(db: Db, user: UserId, recipeId: RecipeId)
    requires CartAdd(db, user, recipeId).Ok?
    ensures CartRemove(CartAdd(db, user, recipeId).value, user, recipeId) == Ok(db)
    ensures CartAdd(CartAdd(db, user, recipeId).value, user, recipeId) == Err(Validation)
  {
    AddThenRemove(db, Purchases, Membership(user, recipeId));
  }

  /** The `is_favorited` / `is_in_shopping_cart` fields follow the transitions:
      true for the caller right after an add, false right after a remove. */
  lemma IsMemberFollowsTransitions(db: Db, rel: Relation, user: UserId, recipe: RecipeId)
    ensures Add(db, rel, Membership(user, recipe)).Ok? ==>
      IsMember(Add(db, rel, Membership(user, recipe)).value, rel, Some(User(user)), recipe)
    ensures Remove(db, rel, Membership(user, recipe)).Ok? ==>
      !IsMember(Remove(db, rel, Membership(user, recipe)).value, rel, Some(User(user)), recipe)
  {
    var m := Membership(user, recipe);
    if Remove(db, rel, m).Ok? {
      var rows := DeleteRow(Table(db, rel), m).value;
      assert Table(Remove(db, rel, m).value, rel) == rows;
      assert m !in Members(rows);
    }
  }
}

=== FILE: seqs.dfy ===
/** Sequence helpers used to model ordered database tables and Python lists. */
module Seqs {

  /** No element occurs twice: the shape of a table with a uniqueness constraint. */
  predicate NoDup<T(==)>(s: seq<T>) {
    forall i, j :: 0 <= i < j < |s| ==> s[i] != s[j]
  }

  /** The elements of `s` in order, each kept at its first occurrence. */
  function Distinct<T(==,!new)>(s: seq<T>): (d: seq<T>)
    ensures NoDup(d)
    ensures forall x :: x in d <==> x in s
    ensures |d| <= |s|
    decreases |s|
  {
    if |s| == 0 then []
    else
      var p := Distinct(s[..|s| - 1]);
      var x := s[|s| - 1];
      assert forall y :: y in s <==> y in s[..|s| - 1] || y == x by {
        assert s == s[..|s| - 1] + [x];
      }
      if x in p then p else p + [x]
  }

  /** The elements of `s` that satisfy `p`, in their original order (an SQL WHERE on a table). */
  function Keep<T(!new)>(s: seq<T>, p: T -> bool): (r: seq<T>)
    ensures forall x :: x in r <==> x in s && p(x)
    ensures forall i :: 0 <= i < |r| ==> p(r[i])
    ensures |r| <= |s|
  {
    if |s| == 0 then []
    else if p(s[0]) then [s[0]] + Keep(s[1..], p)
    else Keep(s[1..], p)
  }

  /** `s` with every occurrence of `x` deleted. */
  function Without<T(==,!new)>(s: seq<T>, x: T): (r: seq<T>)
    ensures forall y :: y in r <==> y in s && y != x
    ensures NoDup(s) ==> NoDup(r)
  {
    if |s| == 0 then []
    else
      var t := Without(s[1..], x);
      NoDupTail(s);
      if s[0] == x then t
      else
        NoDupCons(s[0], t);
        [s[0]] + t
  }

  /** The tail of a duplicate-free sequence is duplicate-free, and the head does not occur in it. */
  lemma NoDupTail<T>(s: seq<T>)
    ensures |s| > 0 && NoDup(s) ==> NoDup(s[1..]) && s[0] !in s[1..]
  {
    if |s| > 0 && NoDup(s) {
      forall i, j | 0 <= i < j < |s[1..]| ensures s[1..][i] != s[1..][j] {
        assert s[1..][i] == s[i + 1] && s[1..][j] == s[j + 1];
      }
      forall k | 0 <= k < |s[1..]| ensures s[1..][k] != s[0] {
        assert s[1..][k] == s[k + 1];
      }
    }
  }

  /** Putting an absent element in front keeps a sequence duplicate-free. */
  lemma NoDupCons<T>(x: T, s: seq<T>)
    ensures x !in s && NoDup(s) ==> NoDup([x] + s)
  {
    if x !in s && NoDup(s) {
      var r := [x] + s;
      forall i, j | 0 <= i < j < |r| ensures r[i] != r[j] {
        if i == 0 {
          assert r[j] in s;
        } else {
          assert r[i] == s[i - 1] && r[j] == s[j - 1];
        }
      }
    }
  }

  /** How many times `x` occurs in `s`. */
  function Count<T(==)>(s: seq<T>, x: T): (n: nat)
    ensures n == 0 <==> x !in s
    ensures n <= |s|
  {
    if |s| == 0 then 0
    else (if s[0] == x then 1 else 0) + Count(s[1..], x)
  }

  lemma {:induction false} KeepPreservesNoDup<T(!new)>(s: seq<T>, p: T -> bool)
    ensures NoDup(s) ==> NoDup(Keep(s, p))
  {
    if |s| > 0 && NoDup(s) {
      NoDupTail(s);
      KeepPreservesNoDup(s[1..], p);
      NoDupCons(s[0], Keep(s[1..], p));
    }
  }

  /** In a duplicate-free sequence an element that occurs, occurs exactly once. */
  lemma {:induction false} CountInNoDup<T>(s: seq<T>, x: T)
    ensures NoDup(s) && x in s ==> Count(s, x) == 1
  {
    if !(NoDup(s) && x in s) {
      return;
    }
    assert NoDup(s[1..]) by {
      forall i, j | 0 <= i < j < |s[1..]| ensures s[1..][i] != s[1..][j] {
        assert s[1..][i] == s[i + 1] && s[1..][j] == s[j + 1];
      }
    }
    if s[0] == x {
      assert x !in s[1..] by {
        forall k | 0 <= k < |s[1..]| ensures s[1..][k] != x {
          assert s[1..][k] == s[k + 1];
        }
      }
    } else {
      assert x in s[1..] by {
        var k :| 0 <= k < |s| && s[k] == x;
        assert s[1..][k - 1] == x;
      }
      CountInNoDup(s[1..], x);
    }
  }

  /** Deleting an element that is absent leaves the sequence as it was. */
  lemma {:induction false} WithoutAbsent<T(!new)>(s: seq<T>, x: T)
    requires x !in s
    ensures Without(s, x) == s
  {
    if |s| > 0 {
      assert x !in s[1..];
      WithoutAbsent(s[1..], x);
      assert s == [s[0]] + s[1..];
    }
  }

  /** Appending `x` and then deleting it restores a sequence that did not hold `x`. */
  lemma {:induction false} WithoutAppended<T(!new)>(s: seq<T>, x: T)
    requires x !in s
    ensures Without(s + [x], x) == s
  {
    if |s| == 0 {
      assert Without([x], x) == Without([x][1..], x);
    } else {
      assert (s + [x])[1..] == s[1..] + [x];
      assert x !in s[1..];
      WithoutAppended(s[1..], x);
      assert s == [s[0]] + s[1..];
    }
  }

  /** Appending an absent element keeps a sequence duplicate-free. */
  lemma AppendFreshNoDup<T>(s: seq<T>, x: T)
    requires NoDup(s)
    requires x !in s
    ensures NoDup(s + [x])
  {
    forall i, j | 0 <= i < j < |s + [x]| ensures (s + [x])[i] != (s + [x])[j] {
      if j == |s| {
        assert (s + [x])[i] == s[i];
      }
    }
  }

  /** Filtering distributes over concatenation. */
  lemma {:induction false} KeepAppend<T(!new)>(a: seq<T>, b: seq<T>, p: T -> bool)
    ensures Keep(a + b, p) == Keep(a, p) + Keep(b, p)
  {
    if |a| > 0 {
      assert (a + b)[1..] == a[1..] + b;
      KeepAppend(a[1..], b, p);
    } else {
      assert a + b == b;
    }
  }

  /** Filtering a sequence extended by one element. */
  lemma KeepSnoc<T(!new)>(s: seq<T>, x: T, p: T -> bool)
    ensures Keep(s + [x], p) == if p(x) then Keep(s, p) + [x] else Keep(s, p)
  {
    KeepAppend(s, [x], p);
    assert [x][1..] == [];
  }

  /** `f` applied to every element, in order. */
  function MapSeq<T, U>(s: seq<T>, f: T -> U): (r: seq<U>)
    ensures |r| == |s|
    ensures forall i :: 0 <= i < |s| ==> r[i] == f(s[i])
  {
    seq(|s|, i requires 0 <= i < |s| => f(s[i]))
  }

  /** Appending one element to the input of `Distinct` appends it to the output unless it was seen. */
  lemma DistinctSnoc<T(!new)>(s: seq<T>, x: T)
    ensures Distinct(s + [x]) == if x in s then Distinct(s) else Distinct(s) + [x]
  {
    assert (s + [x])[..|s|] == s;
  }

  lemma MapSeqSnoc<T, U>(s: seq<T>, x: T, f: T -> U)
    ensures MapSeq(s + [x], f) == MapSeq(s, f) + [f(x)]
  {
  }

  /** Two sequences with the same elements have the same images. */
  lemma MapSeqSameImages<T, U>(a: seq<T>, b: seq<T>, f: T -> U)
    requires forall x :: x in a <==> x in b
    ensures forall y :: y in MapSeq(a, f) <==> y in MapSeq(b, f)
  {
    forall y | y in MapSeq(a, f) ensures y in MapSeq(b, f) {
      var i :| 0 <= i < |a| && MapSeq(a, f)[i] == y;
      assert a[i] in b;
      var j :| 0 <= j < |b| && b[j] == a[i];
      assert MapSeq(b, f)[j] == y;
    }
    forall y | y in MapSeq(b, f) ensures y in MapSeq(a, f) {
      var j :| 0 <= j < |b| && MapSeq(b, f)[j] == y;
      assert b[j] in a;
      var i :| 0 <= i < |a| && a[i] == b[j];
      assert MapSeq(a, f)[i] == y;
    }
  }

  /** Deduplicating before or after mapping keeps the same first occurrences of the images. */
  lemma {:induction false} DistinctMapDistinct<T(!new), U(!new)>(s: seq<T>, f: T -> U)
    ensures Distinct(MapSeq(Distinct(s), f)) == Distinct(MapSeq(s, f))
    decreases |s|
  {
    if |s| > 0 {
      var s' := s[..|s| - 1];
      var x := s[|s| - 1];
      var d' := Distinct(s');
      assert s == s' + [x];
      DistinctMapDistinct(s', f);
      MapSeqSnoc(s', x, f);
      DistinctSnoc(MapSeq(s', f), f(x));
      DistinctSnoc(s', x);
      MapSeqSameImages(d', s', f);
      if x in s' {
        assert x in d';
        var j :| 0 <= j < |d'| && d'[j] == x;
        assert MapSeq(d', f)[j] == f(x);
      } else {
        MapSeqSnoc(d', x, f);
        DistinctSnoc(MapSeq(d', f), f(x));
      }
    }
  }

  /** The position of the first occurrence of `x`. */
  function IndexOf<T(==)>(s: seq<T>, x: T): (i: nat)
    requires x in s
    ensures i < |s| && s[i] == x
    ensures x !in s[..i]
  {
    if s[0] == x then 0
    else
      assert x in s[1..];
      var j := IndexOf(s[1..], x);
      assert s[..j + 1] == [s[0]] + s[1..][..j];
      j + 1
  }

  /** Occurrences in a concatenation add up. */
  lemma {:induction false} CountAppend<T>(a: seq<T>, b: seq<T>, x: T)
    ensures Count(a + b, x) == Count(a, x) + Count(b, x)
  {
    if |a| > 0 {
      assert (a + b)[1..] == a[1..] + b;
      CountAppend(a[1..], b, x);
    } else {
      assert a + b == b;
    }
  }

  /** `CountAppend` for every element at once. */
  lemma CountAppendAll<T(!new)>(a: seq<T>, b: seq<T>)
    ensures forall x :: Count(a + b, x) == Count(a, x) + Count(b, x)
  {
    forall x {
      CountAppend(a, b, x);
    }
  }

  /** Filtering keeps every occurrence of an element that passes and none of one that fails. */
  lemma {:induction false} KeepCount<T(!new)>(s: seq<T>, p: T -> bool)
    ensures forall x :: Count(Keep(s, p), x) == if p(x) then Count(s, x) else 0
  {
    if |s| > 0 {
      KeepCount(s[1..], p);
      if p(s[0]) {
        assert ([s[0]] + Keep(s[1..], p))[1..] == Keep(s[1..], p);
      }
    }
  }
}

=== FILE: shopping.dfy ===
/** The shopping-list download (`shopping_cart_download_function` in
    backend/recipes/views.py): the recipe/ingredient rows of every recipe in
    the caller's cart, summed per (ingredient name, unit), folded into a
    dictionary keyed by name, and printed one line per key. */
module Shopping {
  import opened Seqs
  import opened Store
  import opened Decimal

  /** A grouping key of the aggregate query. */
  datatype Key = Key(name: string, unit: string)

  /** One row of the `values_list(name, amount, unit)` query. */
  datatype Triple = Triple(key: Key, amount: nat)

  /** One row of the `values(name, unit).annotate(total_amount=Sum('amount'))` query. */
  datatype Group = Group(key: Key, total: nat)

  /** One item of the `buying_list` dictionary: its key and its value. */
  datatype Entry = Entry(name: string, amount: nat, unit: string)

  // ---------------------------------------------------------------------------
  // Selection of the rows

  /** The row joins to an existing recipe that `user` has in the cart and to an
      existing ingredient (the inner joins of the query). */
  predicate InCart(db: Db, user: UserId, row: RecipeIngredient) {
    && row.recipe in db.recipes
    && Membership(user, row.recipe) in db.purchases
    && row.ingredient in db.ingredients
  }

  function KeyOf(db: Db, row: RecipeIngredient): Key
    requires row.ingredient in db.ingredients
  {
    Key(db.ingredients[row.ingredient].name, db.ingredients[row.ingredient].unit)
  }

  /** The selected rows of `rows`, in order: each selected row as often as it occurs. */
  function CartRows(db: Db, user: UserId, rows: seq<RecipeIngredient>): (r: seq<RecipeIngredient>)
    ensures forall row :: row in r <==> row in rows && InCart(db, user, row)
    ensures forall row :: Count(r, row) == if InCart(db, user, row) then Count(rows, row) else 0
    decreases |rows|
  {
    if |rows| == 0 then []
    else
      var row := rows[|rows| - 1];
      var prefix := CartRows(db, user, rows[..|rows| - 1]);
      var tail := if InCart(db, user, row) then [row] else [];
      assert rows == rows[..|rows| - 1] + [row];
      CountAppendAll(rows[..|rows| - 1], [row]);
      CountAppendAll(prefix, tail);
      prefix + tail
  }

  /** The selection is the filter of `rows` by `InCart`, order included. */
  lemma {:induction false} CartRowsIsFilter(db: Db, user: UserId, rows: seq<RecipeIngredient>)
    ensures CartRows(db, user, rows) == Keep(rows, (row: RecipeIngredient) => InCart(db, user, row))
    decreases |rows|
  {
    if |rows| > 0 {
      var rows' := rows[..|rows| - 1];
      var row := rows[|rows| - 1];
      CartRowsIsFilter(db, user, rows');
      assert rows == rows' + [row];
      KeepSnoc(rows', row, (row: RecipeIngredient) => InCart(db, user, row));
    }
  }

  /** The `values_list` query over `rows`: one triple per selected row. */
  function CartTriples(db: Db, user: UserId, rows: seq<RecipeIngredient>): seq<Triple>
    decreases |rows|
  {
    if |rows| == 0 then []
    else
      var row := rows[|rows| - 1];
      CartTriples(db, user, rows[..|rows| - 1])
        + (if InCart(db, user, row) then [Triple(KeyOf(db, row), row.amount)] else [])
  }

  /** The reference total: the sum of `amount` over the rows of `rows` whose recipe
      is in the user's cart and whose ingredient has the name and unit of `key`. */
  function RowTotal(db: Db, user: UserId, rows: seq<RecipeIngredient>, key: Key): nat
    decreases |rows|
  {
    if |rows| == 0 then 0
    else
      var row := rows[|rows| - 1];
      RowTotal(db, user, rows[..|rows| - 1], key)
        + (if InCart(db, user, row) && KeyOf(db, row) == key then row.amount else 0)
  }

  // ---------------------------------------------------------------------------
  // Grouping and summing

  function KeySeq(ts: seq<Triple>): seq<Key> {
    MapSeq(ts, (t: Triple) => t.key)
  }

  /** The grouping keys in order of first appearance. */
  function Keys(ts: seq<Triple>): seq<Key> {
    Distinct(KeySeq(ts))
  }

  /** The sum of the amounts of the triples with key `key`. */
  function Total(ts: seq<Triple>, key: Key): nat
    decreases |ts|
  {
    if |ts| == 0 then 0
    else Total(ts[..|ts| - 1], key) + (if ts[|ts| - 1].key == key then ts[|ts| - 1].amount else 0)
  }

  function GroupKeys(gs: seq<Group>): seq<Key> {
    MapSeq(gs, (g: Group) => g.key)
  }

  /** Adds one triple to the running groups: its amount joins the group of its key,
      or a new group is opened at the end. The groups hold each key once. */
  function AddTo(gs: seq<Group>, t: Triple): (r: seq<Group>)
    requires NoDup(GroupKeys(gs))
    ensures NoDup(GroupKeys(r))
    ensures t.key in GroupKeys(gs) ==> |r| == |gs|
    ensures t.key !in GroupKeys(gs) ==> |r| == |gs| + 1 && r[|gs|] == Group(t.key, t.amount)
    ensures forall i :: 0 <= i < |gs| ==>
      r[i] == Group(gs[i].key, gs[i].total + (if gs[i].key == t.key then t.amount else 0))
  {
    var keys := GroupKeys(gs);
    if t.key !in keys then
      assert GroupKeys(gs + [Group(t.key, t.amount)]) == keys + [t.key];
      AppendFreshNoDup(keys, t.key);
      gs + [Group(t.key, t.amount)]
    else
      var j := IndexOf(keys, t.key);
      var r := gs[j := Group(t.key, gs[j].total + t.amount)];
      assert GroupKeys(r) == keys;
      r
  }

  /** The aggregate query: groups in order of first appearance of their key. */
  function GroupSum(ts: seq<Triple>): (gs: seq<Group>)
    ensures NoDup(GroupKeys(gs))
    decreases |ts|
  {
    if |ts| == 0 then []
    else AddTo(GroupSum(ts[..|ts| - 1]), ts[|ts| - 1])
  }

  /** One more triple extends the distinct keys by its key unless that key was seen. */
  lemma KeysSnoc(ts: seq<Triple>)
    requires |ts| > 0
    ensures Keys(ts) ==
      var ks' := Keys(ts[..|ts| - 1]);
      var key := ts[|ts| - 1].key;
      if key in ks' then ks' else ks' + [key]
  {
    var ts' := ts[..|ts| - 1];
    assert KeySeq(ts) == KeySeq(ts') + [ts[|ts| - 1].key];
    DistinctSnoc(KeySeq(ts'), ts[|ts| - 1].key);
  }

  /** The groups of `ts` are its distinct keys in order, each with its total. */
  predicate GroupsMatch(ts: seq<Triple>) {
    && |GroupSum(ts)| == |Keys(ts)|
    && forall i :: 0 <= i < |Keys(ts)| ==> GroupSum(ts)[i] == Group(Keys(ts)[i], Total(ts, Keys(ts)[i]))
  }

  /** After one more triple, a group that already existed has grown by the triple's
      amount when it has the triple's key. */
  lemma GroupAtOld(ts: seq<Triple>, i: nat)
    requires |ts| > 0
    requires GroupsMatch(ts[..|ts| - 1])
    requires GroupKeys(GroupSum(ts[..|ts| - 1])) == Keys(ts[..|ts| - 1])
    requires i < |Keys(ts[..|ts| - 1])|
    ensures i < |Keys(ts)| && i < |GroupSum(ts)|
    ensures GroupSum(ts)[i] == Group(Keys(ts)[i], Total(ts, Keys(ts)[i]))
  {
    var ts' := ts[..|ts| - 1];
    var t := ts[|ts| - 1];
    var gs' := GroupSum(ts');
    var ks' := Keys(ts');
    KeysSnoc(ts);
    assert Keys(ts)[i] == ks'[i] == gs'[i].key;
    assert GroupSum(ts) == AddTo(gs', t);
    assert Total(ts, ks'[i]) == Total(ts', ks'[i]) + (if t.key == ks'[i] then t.amount else 0);
  }

  /** After one more triple with an unseen key, the new last group holds the key and its amount. */
  lemma GroupAtNew(ts: seq<Triple>)
    requires |ts| > 0
    requires GroupKeys(GroupSum(ts[..|ts| - 1])) == Keys(ts[..|ts| - 1])
    requires ts[|ts| - 1].key !in Keys(ts[..|ts| - 1])
    ensures |Keys(ts[..|ts| - 1])| < |Keys(ts)| && |Keys(ts[..|ts| - 1])| < |GroupSum(ts)|
    ensures var i := |Keys(ts[..|ts| - 1])|;
      GroupSum(ts)[i] == Group(Keys(ts)[i], Total(ts, Keys(ts)[i]))
  {
    var ts' := ts[..|ts| - 1];
    var t := ts[|ts| - 1];
    var gs' := GroupSum(ts');
    KeysSnoc(ts);
    assert GroupSum(ts) == AddTo(gs', t);
    assert t.key !in KeySeq(ts');
    TotalAbsent(ts', t.key);
  }

  /** One more triple, added by `AddTo`, keeps the groups matching their description. */
  lemma GroupsMatchStep(ts: seq<Triple>)
    requires |ts| > 0
    requires GroupsMatch(ts[..|ts| - 1])
    ensures GroupsMatch(ts)
  {
    var ts' := ts[..|ts| - 1];
    var gs' := GroupSum(ts');
    var ks' := Keys(ts');
    KeysSnoc(ts);
    assert GroupKeys(gs') == ks';
    assert GroupSum(ts) == AddTo(gs', ts[|ts| - 1]);
    assert |GroupSum(ts)| == |Keys(ts)|;
    forall i | 0 <= i < |Keys(ts)| ensures GroupSum(ts)[i] == Group(Keys(ts)[i], Total(ts, Keys(ts)[i])) {
      if i < |ks'| {
        GroupAtOld(ts, i);
      } else {
        GroupAtNew(ts);
      }
    }
  }

  /** One group per distinct (name, unit) key, in order of first appearance, each
      carrying the sum of the amounts of its triples. */
  lemma {:induction false} GroupSumMatchesSpec(ts: seq<Triple>)
    ensures |GroupSum(ts)| == |Keys(ts)|
    ensures forall i :: 0 <= i < |Keys(ts)| ==> GroupSum(ts)[i] == Group(Keys(ts)[i], Total(ts, Keys(ts)[i]))
    decreases |ts|
  {
    if |ts| > 0 {
      GroupSumMatchesSpec(ts[..|ts| - 1]);
      GroupsMatchStep(ts);
    }
  }

  /** A key that never occurs totals zero. */
  lemma {:induction false} TotalAbsent(ts: seq<Triple>, key: Key)
    requires key !in KeySeq(ts)
    ensures Total(ts, key) == 0
    decreases |ts|
  {
    if |ts| > 0 {
      assert KeySeq(ts)[..|ts| - 1] == KeySeq(ts[..|ts| - 1]);
      assert KeySeq(ts)[|ts| - 1] == ts[|ts| - 1].key;
      TotalAbsent(ts[..|ts| - 1], key);
    }
  }

  // ---------------------------------------------------------------------------
  // The dictionary keyed by name

  function KeyNames(keys: seq<Key>): seq<string> {
    MapSeq(keys, (k: Key) => k.name)
  }

  function EntryNames(es: seq<Entry>): seq<string> {
    MapSeq(es, (e: Entry) => e.name)
  }

  /** The position of the last key named `n`. */
  function LastNamed(keys: seq<Key>, n: string): (j: nat)
    requires n in KeyNames(keys)
    ensures j < |keys| && keys[j].name == n
    ensures forall i :: j < i < |keys| ==> keys[i].name != n
    decreases |keys|
  {
    var last := |keys| - 1;
    if keys[last].name == n then last
    else
      assert KeyNames(keys) == KeyNames(keys[..last]) + [keys[last].name];
      LastNamed(keys[..last], n)
  }

  function EntryOf(g: Group): Entry {
    Entry(g.key.name, g.total, g.key.unit)
  }

  /** `buying_list[name] = {...}`: a name already present keeps its position and
      takes the new value; a new name is appended. A dictionary holds each name
      once, before and after. */
  function Upsert(es: seq<Entry>, g: Group): (r: seq<Entry>)
    requires NoDup(EntryNames(es))
    ensures NoDup(EntryNames(r))
    ensures g.key.name !in EntryNames(es) ==> r == es + [EntryOf(g)]
    ensures g.key.name in EntryNames(es) ==> |r| == |es|
    ensures g.key.name in EntryNames(es) ==>
      forall i :: 0 <= i < |es| ==> r[i] == (if es[i].name == g.key.name then EntryOf(g) else es[i])
    decreases |es|
  {
    var names := EntryNames(es);
    if g.key.name !in names then
      assert EntryNames(es + [EntryOf(g)]) == names + [g.key.name];
      AppendFreshNoDup(names, g.key.name);
      es + [EntryOf(g)]
    else
      var j := IndexOf(names, g.key.name);
      var r := es[j := EntryOf(g)];
      assert EntryNames(r) == names;
      r
  }

  /** The loop that fills `buying_list` from the aggregate rows. */
  function BuyingList(gs: seq<Group>): (es: seq<Entry>)
    ensures NoDup(EntryNames(es))
    decreases |gs|
  {
    if |gs| == 0 then []
    else Upsert(BuyingList(gs[..|gs| - 1]), gs[|gs| - 1])
  }

  /** The names of the dictionary, in insertion order: each distinct name once, at
      the position of its first group. */
  function DictNames(gs: seq<Group>): seq<string> {
    Distinct(KeyNames(GroupKeys(gs)))
  }

  /** One more group adds its name to the dictionary's names unless the name is already there. */
  lemma DictNamesSnoc(gs: seq<Group>)
    requires |gs| > 0
    ensures GroupKeys(gs)[..|gs| - 1] == GroupKeys(gs[..|gs| - 1])
    ensures DictNames(gs) ==
      var d' := DictNames(gs[..|gs| - 1]);
      var n := gs[|gs| - 1].key.name;
      if n in d' then d' else d' + [n]
  {
    var gs' := gs[..|gs| - 1];
    var n := gs[|gs| - 1].key.name;
    assert GroupKeys(gs)[..|gs| - 1] == GroupKeys(gs');
    assert KeyNames(GroupKeys(gs)) == KeyNames(GroupKeys(gs')) + [n];
    DistinctSnoc(KeyNames(GroupKeys(gs')), n);
  }

  /** When the last key has another name, the last key named `n` lies in the prefix. */
  lemma LastNamedInPrefix(keys: seq<Key>, n: string)
    requires n in KeyNames(keys)
    requires keys[|keys| - 1].name != n
    ensures n in KeyNames(keys[..|keys| - 1])
    ensures LastNamed(keys, n) == LastNamed(keys[..|keys| - 1], n)
  {
    assert KeyNames(keys) == KeyNames(keys[..|keys| - 1]) + [keys[|keys| - 1].name];
  }

  /** The dictionary built from `gs` holds one item per distinct name, in order of
      first appearance, each carrying the amount and unit of the LAST group with that name. */
  predicate ListMatches(gs: seq<Group>) {
    && |BuyingList(gs)| == |DictNames(gs)|
    && forall k :: 0 <= k < |DictNames(gs)| ==>
      BuyingList(gs)[k] == EntryOf(gs[LastNamed(GroupKeys(gs), DictNames(gs)[k])])
  }

  lemma ListMatchesNames(gs: seq<Group>)
    requires ListMatches(gs)
    ensures EntryNames(BuyingList(gs)) == DictNames(gs)
  {
    var es := BuyingList(gs);
    var d := DictNames(gs);
    forall k | 0 <= k < |d| ensures EntryNames(es)[k] == d[k] {
      assert es[k] == EntryOf(gs[LastNamed(GroupKeys(gs), d[k])]);
    }
  }

  /** The item for the newest group's name holds that group. */
  lemma ListMatchesAtLast(gs: seq<Group>, k: nat)
    requires |gs| > 0
    requires ListMatches(gs[..|gs| - 1])
    requires k < |DictNames(gs)| && DictNames(gs)[k] == gs[|gs| - 1].key.name
    requires k < |BuyingList(gs)|
    ensures BuyingList(gs)[k] == EntryOf(gs[LastNamed(GroupKeys(gs), DictNames(gs)[k])])
  {
    var gs' := gs[..|gs| - 1];
    var g := gs[|gs| - 1];
    var es' := BuyingList(gs');
    var d' := DictNames(gs');
    ListMatchesNames(gs');
    DictNamesSnoc(gs);
    assert BuyingList(gs) == Upsert(es', g);
    assert LastNamed(GroupKeys(gs), g.key.name) == |gs| - 1;
    if k < |d'| {
      assert es'[k].name == d'[k];
    }
  }

  /** An upsert leaves the items of the other names where and as they were. */
  lemma UpsertKeepsOther(es: seq<Entry>, g: Group, k: nat)
    requires NoDup(EntryNames(es))
    requires k < |es| && es[k].name != g.key.name
    ensures k < |Upsert(es, g)| && Upsert(es, g)[k] == es[k]
  {
  }

  /** A name other than the newest group's has its last group in the prefix. */
  lemma LastNamedOther(gs: seq<Group>, n: string)
    requires |gs| > 0
    requires n in KeyNames(GroupKeys(gs[..|gs| - 1]))
    requires gs[|gs| - 1].key.name != n
    ensures n in KeyNames(GroupKeys(gs))
    ensures gs[LastNamed(GroupKeys(gs), n)] == gs[..|gs| - 1][LastNamed(GroupKeys(gs[..|gs| - 1]), n)]
  {
    var gs' := gs[..|gs| - 1];
    assert GroupKeys(gs)[..|gs| - 1] == GroupKeys(gs');
    assert KeyNames(GroupKeys(gs)) == KeyNames(GroupKeys(gs')) + [gs[|gs| - 1].key.name];
    LastNamedInPrefix(GroupKeys(gs), n);
  }

  /** The item for any other name is the one the dictionary held before. */
  lemma ListMatchesAtOther(gs: seq<Group>, k: nat)
    requires |gs| > 0
    requires ListMatches(gs[..|gs| - 1])
    requires k < |DictNames(gs)| && DictNames(gs)[k] != gs[|gs| - 1].key.name
    requires k < |BuyingList(gs)|
    ensures BuyingList(gs)[k] == EntryOf(gs[LastNamed(GroupKeys(gs), DictNames(gs)[k])])
  {
    var gs' := gs[..|gs| - 1];
    var g := gs[|gs| - 1];
    var es' := BuyingList(gs');
    var d' := DictNames(gs');
    var d := DictNames(gs);
    DictNamesSnoc(gs);
    assert k < |d'| && d[k] == d'[k];
    var n := d'[k];
    ListMatchesNames(gs');
    assert es'[k].name == n;
    UpsertKeepsOther(es', g, k);
    assert BuyingList(gs)[k] == es'[k];
    assert n in KeyNames(GroupKeys(gs'));
    LastNamedOther(gs, n);
    assert es'[k] == EntryOf(gs'[LastNamed(GroupKeys(gs'), n)]);
  }

  /** One more group, folded in by `Upsert`, keeps the dictionary matching its description. */
  lemma ListMatchesStep(gs: seq<Group>)
    requires |gs| > 0
    requires ListMatches(gs[..|gs| - 1])
    ensures ListMatches(gs)
  {
    var gs' := gs[..|gs| - 1];
    ListMatchesNames(gs');
    DictNamesSnoc(gs);
    assert BuyingList(gs) == Upsert(BuyingList(gs'), gs[|gs| - 1]);
    var d := DictNames(gs);
    forall k | 0 <= k < |d| ensures BuyingList(gs)[k] == EntryOf(gs[LastNamed(GroupKeys(gs), d[k])]) {
      if d[k] == gs[|gs| - 1].key.name {
        ListMatchesAtLast(gs, k);
      } else {
        ListMatchesAtOther(gs, k);
      }
    }
  }

  /** The dictionary holds one item per distinct name, in order of first appearance,
      and each item carries the amount and unit of the LAST group with that name. */
  lemma {:induction false} BuyingListMatchesSpec(gs: seq<Group>)
    ensures |BuyingList(gs)| == |DictNames(gs)|
    ensures forall k :: 0 <= k < |DictNames(gs)| ==>
      BuyingList(gs)[k] == EntryOf(gs[LastNamed(GroupKeys(gs), DictNames(gs)[k])])
    decreases |gs|
  {
    if |gs| > 0 {
      BuyingListMatchesSpec(gs[..|gs| - 1]);
      ListMatchesStep(gs);
    }
  }

  /** The triples of the query are exactly the selected rows' (name, unit, amount). */
  lemma {:induction false} CartTriplesTotal(db: Db, user: UserId, rows: seq<RecipeIngredient>, key: Key)
    ensures Total(CartTriples(db, user, rows), key) == RowTotal(db, user, rows, key)
    decreases |rows|
  {
    if |rows| > 0 {
      var rows' := rows[..|rows| - 1];
      var row := rows[|rows| - 1];
      CartTriplesTotal(db, user, rows', key);
      var ts' := CartTriples(db, user, rows');
      if InCart(db, user, row) {
        var t := Triple(KeyOf(db, row), row.amount);
        assert (ts' + [t])[..|ts'|] == ts';
      } else {
        assert CartTriples(db, user, rows) == ts';
      }
    }
  }

  /** A key is grouped exactly when some selected row has that ingredient name and unit. */
  lemma {:induction false} CartKeysFromRows(db: Db, user: UserId, rows: seq<RecipeIngredient>, key: Key)
    ensures key in KeySeq(CartTriples(db, user, rows)) <==>
      exists row :: row in rows && InCart(db, user, row) && KeyOf(db, row) == key
    decreases |rows|
  {
    if |rows| > 0 {
      var rows' := rows[..|rows| - 1];
      var row := rows[|rows| - 1];
      assert rows == rows' + [row];
      CartKeysFromRows(db, user, rows', key);
      var ts' := CartTriples(db, user, rows');
      if InCart(db, user, row) {
        var t := Triple(KeyOf(db, row), row.amount);
        assert KeySeq(ts' + [t]) == KeySeq(ts') + [t.key];
      } else {
        assert CartTriples(db, user, rows) == ts';
      }
    }
  }

  /** Selecting the rows of the cart first changes nothing: with the same recipes,
      purchases and ingredients, only the selected rows reach the query. */
  lemma {:induction false} CartTriplesOfCartRows(db: Db, other: Db, user: UserId, rows: seq<RecipeIngredient>)
    requires other.recipes == db.recipes && other.purchases == db.purchases && other.ingredients == db.ingredients
    ensures CartTriples(other, user, CartRows(db, user, rows)) == CartTriples(db, user, rows)
    decreases |rows|
  {
    if |rows| > 0 {
      var rows' := rows[..|rows| - 1];
      var row := rows[|rows| - 1];
      CartTriplesOfCartRows(db, other, user, rows');
      var selected := CartRows(db, user, rows');
      if InCart(db, user, row) {
        assert (selected + [row])[..|selected|] == selected;
      } else {
        assert CartRows(db, user, rows) == selected;
        assert CartTriples(db, user, rows) == CartTriples(db, user, rows');
      }
    }
  }

  // ---------------------------------------------------------------------------
  // The text of the download

  /** Where the four pieces of a line sit in it. */
  lemma LinePieces(name: string, digits: string, unit: string)
    ensures var line := name + " - " + digits + ", " + unit + "\n";
      && |line| == |name| + 3 + |digits| + |unit| + 3
      && line[..|name|] == name
      && line[|name|..|name| + 3] == " - "
      && line[|name| + 3..|line| - |unit| - 3] == digits
      && line[|line| - |unit| - 3..] == ", " + unit + "\n"
  {
    var line := name + " - " + digits + ", " + unit + "\n";
    assert line == name + " - " + digits + (", " + unit + "\n");
  }

  /** `f'{item} - {amount}, {unit}\n'`. */
  function FormatLine(e: Entry): (line: string)
    ensures |line| == |e.name| + 3 + |NatToString(e.amount)| + |e.unit| + 3
    ensures line[..|e.name|] == e.name
    ensures line[|e.name|..|e.name| + 3] == " - "
    ensures AllDigits(line[|e.name| + 3..|line| - |e.unit| - 3])
    ensures ParseDigits(line[|e.name| + 3..|line| - |e.unit| - 3]) == e.amount
    ensures line[|line| - |e.unit| - 3..] == ", " + e.unit + "\n"
  {
    LinePieces(e.name, NatToString(e.amount), e.unit);
    ParseNatToString(e.amount);
    e.name + " - " + NatToString(e.amount) + ", " + e.unit + "\n"
  }

  /** The lines of the download, one per dictionary item, in insertion order. */
  function ShoppingLines(db: Db, user: UserId): seq<string> {
    MapSeq(BuyingList(GroupSum(CartTriples(db, user, db.amounts))), FormatLine)
  }

  /** The grouping keys of the user's cart, in order of first appearance. */
  function CartKeys(db: Db, user: UserId): seq<Key> {
    Keys(CartTriples(db, user, db.amounts))
  }

  /** The distinct ingredient names of the user's cart, in order of first appearance. */
  function CartNames(db: Db, user: UserId): seq<string> {
    Distinct(KeyNames(CartKeys(db, user)))
  }

  /** What the download says: one line per distinct ingredient name in the cart, in
      order of first appearance; the line for a name carries the unit of the last
      (name, unit) group with that name, and the sum of `amount` over every cart
      row of that ingredient name and unit. */
  lemma ShoppingListSpec(db: Db, user: UserId)
    ensures NoDup(CartNames(db, user))
    ensures |ShoppingLines(db, user)| == |CartNames(db, user)|
    ensures forall k :: 0 <= k < |CartNames(db, user)| ==>
      var n := CartNames(db, user)[k];
      var key := CartKeys(db, user)[LastNamed(CartKeys(db, user), n)];
      ShoppingLines(db, user)[k] == FormatLine(Entry(n, RowTotal(db, user, db.amounts, key), key.unit))
  {
    var ts := CartTriples(db, user, db.amounts);
    var gs := GroupSum(ts);
    var keys := CartKeys(db, user);
    GroupSumMatchesSpec(ts);
    assert GroupKeys(gs) == keys;
    BuyingListMatchesSpec(gs);
    assert DictNames(gs) == CartNames(db, user);
    forall k | 0 <= k < |CartNames(db, user)|
      ensures var n := CartNames(db, user)[k];
        var key := keys[LastNamed(keys, n)];
        ShoppingLines(db, user)[k] == FormatLine(Entry(n, RowTotal(db, user, db.amounts, key), key.unit))
    {
      var n := CartNames(db, user)[k];
      var j := LastNamed(keys, n);
      CartTriplesTotal(db, user, db.amounts, keys[j]);
      assert gs[j] == Group(keys[j], Total(ts, keys[j]));
    }
  }

  /** The ingredient names of the query rows, in query order. */
  function TripleNames(ts: seq<Triple>): seq<string> {
    MapSeq(ts, (t: Triple) => t.key.name)
  }

  /** Grouping by (name, unit) and then folding by name yields the names in order of
      their first appearance among the query rows, as if the rows had been folded by
      name directly. */
  lemma CartNamesFirstAppearance(db: Db, user: UserId)
    ensures CartNames(db, user) == Distinct(TripleNames(CartTriples(db, user, db.amounts)))
  {
    var ts := CartTriples(db, user, db.amounts);
    DistinctMapDistinct(KeySeq(ts), (k: Key) => k.name);
    assert MapSeq(KeySeq(ts), (k: Key) => k.name) == TripleNames(ts);
  }

  /** A name gets a line exactly when some row of a recipe in the user's cart names an
      ingredient with that name. */
  lemma CartNamesFromRows(db: Db, user: UserId, n: string)
    ensures n in CartNames(db, user) <==>
      exists row :: row in db.amounts && InCart(db, user, row) && KeyOf(db, row).name == n
  {
    var ts := CartTriples(db, user, db.amounts);
    var keys := CartKeys(db, user);
    if n in CartNames(db, user) {
      var i :| 0 <= i < |keys| && KeyNames(keys)[i] == n;
      assert keys[i] in KeySeq(ts);
      CartKeysFromRows(db, user, db.amounts, keys[i]);
    }
    if exists row :: row in db.amounts && InCart(db, user, row) && KeyOf(db, row).name == n {
      var row :| row in db.amounts && InCart(db, user, row) && KeyOf(db, row).name == n;
      CartKeysFromRows(db, user, db.amounts, KeyOf(db, row));
      assert KeyOf(db, row) in keys;
      var i :| 0 <= i < |keys| && keys[i] == KeyOf(db, row);
      assert KeyNames(keys)[i] == n;
    }
  }

  /** Rows of recipes outside the user's cart contribute nothing: dropping them from
      the table leaves the download unchanged. */
  lemma OnlyCartRowsCount(db: Db, user: UserId)
    ensures ShoppingLines(db.(amounts := CartRows(db, user, db.amounts)), user) == ShoppingLines(db, user)
  {
    CartTriplesOfCartRows(db, db.(amounts := CartRows(db, user, db.amounts)), user, db.amounts);
  }

  /** The response body: the lines written one after another. */
  function Document(lines: seq<string>): string
    decreases |lines|
  {
    if |lines| == 0 then ""
    else Document(lines[..|lines| - 1]) + lines[|lines| - 1]
  }

  /** The pieces of a line carry no break of their own, so the line holds exactly the final one. */
  lemma LineBreakCount(name: string, digits: string, unit: string)
    requires '\n' !in name && '\n' !in digits && '\n' !in unit
    ensures Count(name + " - " + digits + ", " + unit + "\n", '\n') == 1
  {
    CountAppend(name + " - " + digits + ", " + unit, "\n", '\n');
    CountAppend(name + " - " + digits + ", ", unit, '\n');
    CountAppend(name + " - " + digits, ", ", '\n');
    CountAppend(name + " - ", digits, '\n');
    CountAppend(name, " - ", '\n');
  }

  /** A formatted line ends in the only line break it holds, unless the name or the unit brings its own. */
  lemma FormatLineBreaks(e: Entry)
    requires '\n' !in e.name && '\n' !in e.unit
    ensures Count(FormatLine(e), '\n') == 1
  {
    var digits := NatToString(e.amount);
    assert '\n' !in digits by {
      assert AllDigits(digits);
    }
    LineBreakCount(e.name, digits, e.unit);
  }

  lemma {:induction false} DocumentBreaks(lines: seq<string>)
    requires forall k :: 0 <= k < |lines| ==> Count(lines[k], '\n') == 1
    ensures Count(Document(lines), '\n') == |lines|
    decreases |lines|
  {
    if |lines| > 0 {
      DocumentBreaks(lines[..|lines| - 1]);
      CountAppend(Document(lines[..|lines| - 1]), lines[|lines| - 1], '\n');
    }
  }

  /** When no ingredient name or unit contains a line break, the downloaded text has
      exactly one line per distinct ingredient name of the cart. */
  lemma DocumentLineCount(db: Db, user: UserId)
    requires forall id :: id in db.ingredients ==>
      '\n' !in db.ingredients[id].name && '\n' !in db.ingredients[id].unit
    ensures Count(Document(ShoppingLines(db, user)), '\n') == |CartNames(db, user)|
  {
    ShoppingListSpec(db, user);
    var lines := ShoppingLines(db, user);
    var keys := CartKeys(db, user);
    var ts := CartTriples(db, user, db.amounts);
    forall k | 0 <= k < |lines| ensures Count(lines[k], '\n') == 1 {
      var n := CartNames(db, user)[k];
      var key := keys[LastNamed(keys, n)];
      assert key in KeySeq(ts);
      CartKeysFromRows(db, user, db.amounts, key);
      var row :| row in db.amounts && InCart(db, user, row) && KeyOf(db, row) == key;
      FormatLineBreaks(Entry(n, RowTotal(db, user, db.amounts, key), key.unit));
    }
    DocumentBreaks(lines);
  }

  // ---------------------------------------------------------------------------
  // A worked case: recipe 1 needs 200 g of flour, recipe 2 needs 100 g of flour
  // and 50 g of sugar, and user 5 has both recipes in the cart.

  lemma ExampleTriples(db: Db)
    requires db.ingredients == map[10 := Ingredient("flour", "g"), 11 := Ingredient("sugar", "g")]
    requires 1 in db.recipes && 2 in db.recipes
    requires db.purchases == [Membership(5, 1), Membership(5, 2)]
    requires db.amounts == [RecipeIngredient(1, 10, 200), RecipeIngredient(2, 10, 100), RecipeIngredient(2, 11, 50)]
    ensures CartTriples(db, 5, db.amounts)
      == [Triple(Key("flour", "g"), 200), Triple(Key("flour", "g"), 100), Triple(Key("sugar", "g"), 50)]
  {
    var rows := db.amounts;
    assert rows[..2] == [RecipeIngredient(1, 10, 200), RecipeIngredient(2, 10, 100)];
    assert rows[..2][..1] == [RecipeIngredient(1, 10, 200)];
    assert rows[..2][..1][..0] == [];
    assert InCart(db, 5, rows[0]) && InCart(db, 5, rows[1]) && InCart(db, 5, rows[2]);
    assert KeyOf(db, rows[0]) == Key("flour", "g") && KeyOf(db, rows[1]) == Key("flour", "g");
    assert KeyOf(db, rows[2]) == Key("sugar", "g");
    assert CartTriples(db, 5, rows[..2][..1][..0]) == [];
    assert CartTriples(db, 5, rows[..2][..1]) == [Triple(Key("flour", "g"), 200)];
    assert CartTriples(db, 5, rows[..2]) == [Triple(Key("flour", "g"), 200), Triple(Key("flour", "g"), 100)];
  }

  lemma ExampleGroups()
    ensures GroupSum([Triple(Key("flour", "g"), 200), Triple(Key("flour", "g"), 100), Triple(Key("sugar", "g"), 50)])
      == [Group(Key("flour", "g"), 300), Group(Key("sugar", "g"), 50)]
  {
    var flour := Key("flour", "g");
    var sugar := Key("sugar", "g");
    var ts := [Triple(flour, 200), Triple(flour, 100), Triple(sugar, 50)];
    assert ts[..2] == [Triple(flour, 200), Triple(flour, 100)];
    assert ts[..2][..1] == [Triple(flour, 200)];
    assert ts[..2][..1][..0] == [];
    assert GroupSum(ts[..2][..1]) == [Group(flour, 200)];
    assert GroupKeys([Group(flour, 200)]) == [flour];
    assert GroupSum(ts[..2]) == [Group(flour, 300)];
    assert GroupKeys([Group(flour, 300)]) == [flour];
  }

  lemma ExampleEntries()
    ensures BuyingList([Group(Key("flour", "g"), 300), Group(Key("sugar", "g"), 50)])
      == [Entry("flour", 300, "g"), Entry("sugar", 50, "g")]
  {
    var gs := [Group(Key("flour", "g"), 300), Group(Key("sugar", "g"), 50)];
    assert gs[..1] == [Group(Key("flour", "g"), 300)];
    assert gs[..1][..0] == [];
    assert BuyingList(gs[..1]) == [Entry("flour", 300, "g")];
    assert EntryNames([Entry("flour", 300, "g")]) == ["flour"];
  }

  lemma ExampleFlourLine()
    ensures FormatLine(Entry("flour", 300, "g")) == "flour - 300, g\n"
  {
    assert NatToString(30) == "30";
    assert NatToString(300) == "300";
  }

  lemma ExampleSugarLine()
    ensures FormatLine(Entry("sugar", 50, "g")) == "sugar - 50, g\n"
  {
    assert NatToString(50) == "50";
  }

  lemma ExampleLines()
    ensures MapSeq(BuyingList([Group(Key("flour", "g"), 300), Group(Key("sugar", "g"), 50)]), FormatLine)
      == ["flour - 300, g\n", "sugar - 50, g\n"]
  {
    ExampleEntries();
    ExampleFlourLine();
    ExampleSugarLine();
  }

  /** Two groups share the name "salt" with different units: the dictionary keeps
      one item, at the first group's position, with the second group's amount and unit. */
  lemma SameNameLaterGroupWins()
    ensures BuyingList([Group(Key("salt", "g"), 5), Group(Key("pepper", "g"), 1), Group(Key("salt", "tsp"), 2)])
      == [Entry("salt", 2, "tsp"), Entry("pepper", 1, "g")]
  {
    var gs := [Group(Key("salt", "g"), 5), Group(Key("pepper", "g"), 1), Group(Key("salt", "tsp"), 2)];
    assert gs[..2] == [Group(Key("salt", "g"), 5), Group(Key("pepper", "g"), 1)];
    assert gs[..2][..1] == [Group(Key("salt", "g"), 5)];
    assert gs[..2][..1][..0] == [];
    assert BuyingList(gs[..2][..1]) == [Entry("salt", 5, "g")];
    assert EntryNames([Entry("salt", 5, "g")]) == ["salt"];
    assert BuyingList(gs[..2]) == [Entry("salt", 5, "g"), Entry("pepper", 1, "g")];
    assert EntryNames([Entry("salt", 5, "g"), Entry("pepper", 1, "g")]) == ["salt", "pepper"];
  }

  /** The flour amounts of both recipes are summed, sugar is listed once, and the
      lines come in order of first appearance. */
  lemma CartExample(db: Db)
    requires db.ingredients == map[10 := Ingredient("flour", "g"), 11 := Ingredient("sugar", "g")]
    requires 1 in db.recipes && 2 in db.recipes
    requires db.purchases == [Membership(5, 1), Membership(5, 2)]
    requires db.amounts == [RecipeIngredient(1, 10, 200), RecipeIngredient(2, 10, 100), RecipeIngredient(2, 11, 50)]
    ensures ShoppingLines(db, 5) == ["flour - 300, g\n", "sugar - 50, g\n"]
  {
    ExampleTriples(db);
    ExampleGroups();
    ExampleLines();
  }
}

=== FILE: store.dfy ===
/** The relational store of the recipe backend (backend/recipes/models.py),
    abstracted as immutable values: catalogs as maps from primary key to
    record, join tables as sequences of rows in insertion order. */
module Store {
  import opened Wrappers
  import opened Seqs

  type UserId = nat
  type RecipeId = nat
  type IngredientId = nat
  type TagId = nat

  /** Largest value a PositiveSmallIntegerField column can hold. */
  const MaxSmallInt: nat := 32767

  datatype Ingredient = Ingredient(name: string, unit: string)

  datatype Recipe = Recipe(
    author: UserId,
    name: string,
    image: string,
    text: string,
    cookingTime: nat,
    tags: set<TagId>)

  /** A row of the recipe/ingredient join table together with its amount. */
  datatype RecipeIngredient = RecipeIngredient(recipe: RecipeId, ingredient: IngredientId, amount: nat)

  /** A row of the favorites table or of the purchase (shopping cart) table. */
  datatype Membership = Membership(user: UserId, recipe: RecipeId)

  datatype Db = Db(
    recipes: map<RecipeId, Recipe>,
    ingredients: map<IngredientId, Ingredient>,
    amounts: seq<RecipeIngredient>,
    favorites: seq<Membership>,
    purchases: seq<Membership>)

  /** The range admitted by MinValueValidator(1) on a PositiveSmallIntegerField. */
  predicate InSmallRange(n: nat) {
    1 <= n <= MaxSmallInt
  }

  predicate ValidAmountRow(db: Db, row: RecipeIngredient) {
    && InSmallRange(row.amount)
    && row.recipe in db.recipes
    && row.ingredient in db.ingredients
  }

  /** A membership table whose rows reference existing recipes and that holds each (user, recipe) pair at most once. */
  predicate ValidMemberships(db: Db, rows: seq<Membership>) {
    && NoDup(rows)
    && forall m :: m in rows ==> m.recipe in db.recipes
  }

  /** The invariant the model keeps: the declared field ranges (MinValueValidator(1)
      and the small-integer bound; the validator is not a database constraint),
      resolving foreign keys and the two uniqueness constraints. */
  predicate Valid(db: Db) {
    && (forall id :: id in db.recipes ==> InSmallRange(db.recipes[id].cookingTime))
    && (forall row :: row in db.amounts ==> ValidAmountRow(db, row))
    && ValidMemberships(db, db.favorites)
    && ValidMemberships(db, db.purchases)
  }

  /** The (user, recipe) pairs a membership table holds. */
  function Members(rows: seq<Membership>): (s: set<Membership>)
    ensures forall m :: m in s <==> m in rows
  {
    set m | m in rows
  }

  /** The recipes a membership table associates with `user`; no recipe when there is no user id. */
  function RecipesOf(rows: seq<Membership>, user: Option<UserId>): (s: set<RecipeId>)
    ensures forall id :: id in s <==> user.Some? && Membership(user.value, id) in rows
  {
    set m | m in rows && Some(m.user) == user :: m.recipe
  }

  /** The store without recipe `id` and without the join rows that reference it. */
  function WithoutRecipe(db: Db, id: RecipeId): Db {
    Db(
      db.recipes - {id},
      db.ingredients,
      Keep(db.amounts, (row: RecipeIngredient) => row.recipe != id),
      Keep(db.favorites, (m: Membership) => m.recipe != id),
      Keep(db.purchases, (m: Membership) => m.recipe != id))
  }

  /** Which rows, and how many copies of each, survive the removal of a recipe. */
  lemma WithoutRecipeRows(db: Db, id: RecipeId)
    ensures forall row :: row in WithoutRecipe(db, id).amounts <==> row in db.amounts && row.recipe != id
    ensures forall row :: Count(WithoutRecipe(db, id).amounts, row) == if row.recipe == id then 0 else Count(db.amounts, row)
    ensures forall m :: m in WithoutRecipe(db, id).favorites <==> m in db.favorites && m.recipe != id
    ensures forall m :: Count(WithoutRecipe(db, id).favorites, m) == if m.recipe == id then 0 else Count(db.favorites, m)
    ensures forall m :: m in WithoutRecipe(db, id).purchases <==> m in db.purchases && m.recipe != id
    ensures forall m :: Count(WithoutRecipe(db, id).purchases, m) == if m.recipe == id then 0 else Count(db.purchases, m)
  {
    KeepCount(db.amounts, (row: RecipeIngredient) => row.recipe != id);
    KeepCount(db.favorites, (m: Membership) => m.recipe != id);
    KeepCount(db.purchases, (m: Membership) => m.recipe != id);
  }

  lemma WithoutRecipeValid(db: Db, id: RecipeId)
    requires Valid(db)
    ensures Valid(WithoutRecipe(db, id))
  {
    WithoutRecipeRows(db, id);
    KeepPreservesNoDup(db.favorites, (m: Membership) => m.recipe != id);
    KeepPreservesNoDup(db.purchases, (m: Membership) => m.recipe != id);
  }

  /** Deleting a recipe; every join row referencing it goes with it (on_delete=CASCADE). */
  function DeleteRecipe(db: Db, id: RecipeId): (r: Result<Db>)
    ensures id !in db.recipes <==> r == Err(NotFound)
    ensures r.Ok? <==> id in db.recipes
    ensures r.Ok? ==> r.value.recipes == db.recipes - {id}
    ensures r.Ok? ==> r.value.ingredients == db.ingredients
    ensures r.Ok? ==> forall row :: row in r.value.amounts <==> row in db.amounts && row.recipe != id
    ensures r.Ok? ==> forall row :: Count(r.value.amounts, row) == if row.recipe == id then 0 else Count(db.amounts, row)
    ensures r.Ok? ==> forall m :: m in r.value.favorites <==> m in db.favorites && m.recipe != id
    ensures r.Ok? ==> forall m :: Count(r.value.favorites, m) == if m.recipe == id then 0 else Count(db.favorites, m)
    ensures r.Ok? ==> forall m :: m in r.value.purchases <==> m in db.purchases && m.recipe != id
    ensures r.Ok? ==> forall m :: Count(r.value.purchases, m) == if m.recipe == id then 0 else Count(db.purchases, m)
    ensures r.Ok? && Valid(db) ==> Valid(r.value)
  {
    if id !in db.recipes then Err(NotFound)
    else
      WithoutRecipeRows(db, id);
      assert Valid(db) ==> Valid(WithoutRecipe(db, id)) by {
        if Valid(db) { WithoutRecipeValid(db, id); }
      }
      Ok(WithoutRecipe(db, id))
  }

  /** Deleting an ingredient; every recipe/ingredient row referencing it goes with it (on_delete=CASCADE). */
  function DeleteIngredient(db: Db, id: IngredientId): (r: Result<Db>)
    ensures id !in db.ingredients <==> r == Err(NotFound)
    ensures r.Ok? <==> id in db.ingredients
    ensures r.Ok? ==> r.value.ingredients == db.ingredients - {id}
    ensures r.Ok? ==> forall row :: row in r.value.amounts <==> row in db.amounts && row.ingredient != id
    ensures r.Ok? ==> forall row :: Count(r.value.amounts, row) == if row.ingredient == id then 0 else Count(db.amounts, row)
    ensures r.Ok? ==> r.value == db.(ingredients := r.value.ingredients, amounts := r.value.amounts)
    ensures r.Ok? && Valid(db) ==> Valid(r.value)
  {
    if id !in db.ingredients then Err(NotFound)
    else
      KeepCount(db.amounts, (row: RecipeIngredient) => row.ingredient != id);
      Ok(db.(
      ingredients := db.ingredients - {id},
      amounts := Keep(db.amounts, (row: RecipeIngredient) => row.ingredient != id)))
  }
}

=== FILE: submission.dfy ===
/** The checks a recipe submission goes through, taken on their own
    (backend/recipes/serializers.py: `validate_ingredients`, `validate_tags`
    and the per-entry checks of the loop in `create_or_update_cycle`). In the
    source the loop's writes are interleaved with these per-entry checks. */
module Submission {
  import opened Wrappers
  import opened Seqs
  import opened Store

  /** One element of the submitted `ingredients` list, with a single ingredient id.
      The serializer's own `id` field is a many-valued primary-key field that
      rejects unknown ids before this loop runs; the model checks the loop alone. */
  datatype IngredientEntry = IngredientEntry(id: IngredientId, amount: int)

  /** `validate_ingredients`: the submitted list must hold at least one entry;
      a non-empty list passes through unchanged. */
  function ValidateIngredients(submitted: seq<IngredientEntry>): (r: Result<seq<IngredientEntry>>)
    ensures r.Err? <==> |submitted| == 0
    ensures r.Err? ==> r.error == Validation
    ensures r.Ok? ==> r.value == submitted
  {
    if |submitted| < 1 then Err(Validation) else Ok(submitted)
  }

  /** `validate_tags` as written: an empty list is rejected, but the method ends
      without a `return`, so the validated value of a non-empty list is None. */
  function ValidateTagsAsWritten(tags: seq<TagId>): (r: Result<Option<seq<TagId>>>)
    ensures r.Err? <==> |tags| == 0
    ensures r.Err? ==> r.error == Validation
    ensures r.Ok? ==> r.value.None?
  {
    if |tags| < 1 then Err(Validation) else Ok(None)
  }

  /** `validate_tags` with the return it evidently lacks: the same check, and a
      non-empty list validates to itself. */
  function ValidateTags(tags: seq<TagId>): (r: Result<seq<TagId>>)
    ensures r.Err? <==> |tags| == 0
    ensures r.Err? ==> r.error == Validation
    ensures r.Ok? ==> r.value == tags
  {
    if |tags| < 1 then Err(Validation) else Ok(tags)
  }

  /** A one-tag submission passes the check as written but its tags are lost:
      the value handed on is None, where the corrected check hands on the list. */
  lemma ValidateTagsAsWrittenDropsTags()
    ensures ValidateTagsAsWritten([7]) == Ok(None)
    ensures ValidateTags([7]) == Ok([7])
  {
  }

  /** What makes an entry a repeat of an earlier one. */
  datatype DuplicatePolicy =
    | SameEntry       // equal id and equal amount: the comparison the source makes
    | SameIngredient  // equal id: what "ingredients must not repeat" asks for

  function Ids(entries: seq<IngredientEntry>): (ids: seq<IngredientId>)
    ensures |ids| == |entries|
    ensures forall i :: 0 <= i < |entries| ==> ids[i] == entries[i].id
  {
    MapSeq(entries, (e: IngredientEntry) => e.id)
  }

  /** Entry `i` repeats an entry before it. */
  predicate Repeats(policy: DuplicatePolicy, entries: seq<IngredientEntry>, i: nat)
    requires i < |entries|
  {
    match policy
    case SameEntry => entries[i] in entries[..i]
    case SameIngredient => entries[i].id in Ids(entries[..i])
  }

  /** Entry `i` stops the loop: it is a repeat, or its ingredient is unknown. */
  predicate Rejected(policy: DuplicatePolicy, entries: seq<IngredientEntry>, db: Db, i: nat)
    requires i < |entries|
  {
    Repeats(policy, entries, i) || entries[i].id !in db.ingredients
  }

  /** The repeat check comes first in the loop, so a repeated unknown entry is a validation error. */
  function RejectionAt(policy: DuplicatePolicy, entries: seq<IngredientEntry>, i: nat): Error
    requires i < |entries|
  {
    if Repeats(policy, entries, i) then Validation else NotFound
  }

  /** Entry `j` is the first entry from position `i` on that stops the loop. */
  predicate FirstRejected(policy: DuplicatePolicy, entries: seq<IngredientEntry>, db: Db, i: nat, j: nat)
    requires i <= j < |entries|
  {
    Rejected(policy, entries, db, j) && forall k :: i <= k < j ==> !Rejected(policy, entries, db, k)
  }

  /** The loop over the submitted entries from position `i` on, with the entries
      before `i` already in the list of seen entries. */
  function CheckFrom(policy: DuplicatePolicy, entries: seq<IngredientEntry>, db: Db, i: nat): (r: Outcome)
    requires i <= |entries|
    ensures r == Pass <==> forall j :: i <= j < |entries| ==> !Rejected(policy, entries, db, j)
    ensures r.Fail? ==> exists j ::
      && i <= j < |entries|
      && FirstRejected(policy, entries, db, i, j)
      && r.error == RejectionAt(policy, entries, j)
    decreases |entries| - i
  {
    if i == |entries| then Pass
    else if Rejected(policy, entries, db, i) then
      assert FirstRejected(policy, entries, db, i, i);
      Fail(RejectionAt(policy, entries, i))
    else
      var r := CheckFrom(policy, entries, db, i + 1);
      if r.Fail? then
        var j :|
          && i + 1 <= j < |entries|
          && FirstRejected(policy, entries, db, i + 1, j)
          && r.error == RejectionAt(policy, entries, j);
        assert FirstRejected(policy, entries, db, i, j);
        r
      else r
  }

  /** The per-entry checks of `create_or_update_cycle`: the first entry that repeats
      an earlier one is a validation error, the first entry naming an unknown
      ingredient is not-found (the loop's own lookup; field validation of the
      request already rejects unknown ids), whichever comes first. */
  function CheckEntries(policy: DuplicatePolicy, entries: seq<IngredientEntry>, db: Db): (r: Outcome)
    ensures r == Pass <==> forall j :: 0 <= j < |entries| ==> !Rejected(policy, entries, db, j)
    ensures r.Fail? ==> exists j ::
      && 0 <= j < |entries|
      && FirstRejected(policy, entries, db, 0, j)
      && r.error == RejectionAt(policy, entries, j)
  {
    CheckFrom(policy, entries, db, 0)
  }

  /** Under the source's comparison the entries pass exactly when no entry occurs
      twice verbatim and every id names a catalog ingredient. */
  lemma SameEntryPassesIff(entries: seq<IngredientEntry>, db: Db)
    ensures CheckEntries(SameEntry, entries, db) == Pass <==>
      NoDup(entries) && forall e :: e in entries ==> e.id in db.ingredients
  {
    if CheckEntries(SameEntry, entries, db) == Pass {
      forall i, j | 0 <= i < j < |entries| ensures entries[i] != entries[j] {
        assert !Rejected(SameEntry, entries, db, j);
        assert entries[i] == entries[..j][i];
      }
      forall e | e in entries ensures e.id in db.ingredients {
        var k :| 0 <= k < |entries| && entries[k] == e;
        assert !Rejected(SameEntry, entries, db, k);
      }
    }
    if NoDup(entries) && forall e :: e in entries ==> e.id in db.ingredients {
      forall j | 0 <= j < |entries| ensures !Rejected(SameEntry, entries, db, j) {
        assert entries[j] in entries;
      }
    }
  }

  /** Under the corrected comparison the entries pass exactly when their ingredient
      ids are pairwise distinct and all name catalog ingredients. */
  lemma SameIngredientPassesIff(entries: seq<IngredientEntry>, db: Db)
    ensures CheckEntries(SameIngredient, entries, db) == Pass <==>
      NoDup(Ids(entries)) && forall e :: e in entries ==> e.id in db.ingredients
  {
    var ids := Ids(entries);
    if CheckEntries(SameIngredient, entries, db) == Pass {
      forall i, j | 0 <= i < j < |ids| ensures ids[i] != ids[j] {
        assert !Rejected(SameIngredient, entries, db, j);
        assert Ids(entries[..j])[i] == ids[i];
      }
      forall e | e in entries ensures e.id in db.ingredients {
        var k :| 0 <= k < |entries| && entries[k] == e;
        assert !Rejected(SameIngredient, entries, db, k);
      }
    }
    if NoDup(ids) && forall e :: e in entries ==> e.id in db.ingredients {
      forall j | 0 <= j < |entries| ensures !Rejected(SameIngredient, entries, db, j) {
        assert entries[j] in entries;
      }
    }
  }

  /** The repeat check as written compares whole entries, so any ingredient listed
      twice with two different amounts passes, where the corrected check rejects it. */
  lemma SameEntryAdmitsRepeatedIngredient(db: Db, id: IngredientId, a: int, b: int)
    requires id in db.ingredients
    requires a != b
    ensures CheckEntries(SameEntry, [IngredientEntry(id, a), IngredientEntry(id, b)], db) == Pass
    ensures CheckEntries(SameIngredient, [IngredientEntry(id, a), IngredientEntry(id, b)], db) == Fail(Validation)
  {
    var entries := [IngredientEntry(id, a), IngredientEntry(id, b)];
    assert entries[..1] == [IngredientEntry(id, a)];
    assert Ids(entries[..1]) == [id];
    assert Ids(entries[..0]) == [];
    assert !Repeats(SameIngredient, entries, 0) && Repeats(SameIngredient, entries, 1);
    assert !Repeats(SameEntry, entries, 0) && !Repeats(SameEntry, entries, 1);
    assert CheckFrom(SameIngredient, entries, db, 1) == Fail(Validation);
    assert CheckFrom(SameEntry, entries, db, 1) == Pass;
  }

  /** A submission that passes every check, with the corrected tag validator and
      the by-ingredient repeat check. */
  datatype ValidSubmission = ValidSubmission(ingredients: seq<IngredientEntry>, tags: seq<TagId>)

  /** Corrected: the checks a recipe create or update makes of the submitted lists,
      with the missing return of `validate_tags` supplied and the by-ingredient
      repeat check in the loop. The code as written is `ValidateTagsAsWritten` and
      `CheckEntries(SameEntry, ...)`. */
  function ValidateSubmission(ingredients: seq<IngredientEntry>, tags: seq<TagId>, db: Db): (r: Result<ValidSubmission>)
    ensures r.Ok? <==>
      && |ingredients| > 0
      && |tags| > 0
      && NoDup(Ids(ingredients))
      && forall e :: e in ingredients ==> e.id in db.ingredients
    ensures r.Ok? ==> r.value == ValidSubmission(ingredients, tags)
    ensures |ingredients| == 0 || |tags| == 0 ==> r == Err(Validation)
    ensures |ingredients| > 0 && |tags| > 0 && r.Err? ==> exists j ::
      && 0 <= j < |ingredients|
      && FirstRejected(SameIngredient, ingredients, db, 0, j)
      && r.error == RejectionAt(SameIngredient, ingredients, j)
  {
    SameIngredientPassesIff(ingredients, db);
    var entries :- ValidateIngredients(ingredients);
    var tagList :- ValidateTags(tags);
    match CheckEntries(SameIngredient, entries, db)
    case Pass => Ok(ValidSubmission(entries, tagList))
    case Fail(e) => Err(e)
  }

  /** An unknown ingredient that repeats no earlier one is not-found, and a repeated
      ingredient is a validation error, when it is the first entry the loop rejects. */
  lemma FirstRejectionKinds(ingredients: seq<IngredientEntry>, tags: seq<TagId>, db: Db, j: nat)
    requires |tags| > 0
    requires j < |ingredients|
    requires FirstRejected(SameIngredient, ingredients, db, 0, j)
    ensures Repeats(SameIngredient, ingredients, j) ==> ValidateSubmission(ingredients, tags, db) == Err(Validation)
    ensures !Repeats(SameIngredient, ingredients, j) ==> ValidateSubmission(ingredients, tags, db) == Err(NotFound)
  {
    var r := ValidateSubmission(ingredients, tags, db);
    assert Rejected(SameIngredient, ingredients, db, j);
    var k :| 0 <= k < |ingredients| && FirstRejected(SameIngredient, ingredients, db, 0, k)
      && r.error == RejectionAt(SameIngredient, ingredients, k);
    assert j == k;
  }
}

=== FILE: wrappers.dfy ===
/** Failure-carrying results shared by every operation of the model.

    The backend reports failures as HTTP error responses; the model keeps
    only their kind:
    - Validation: a serializer raised a validation error (HTTP 400),
    - NotFound: `get_object_or_404` found no row (HTTP 404),
    - MultipleFound: `get_object_or_404` found more than one row (the ORM
      raises MultipleObjectsReturned, an unhandled server error).
 */
module Wrappers {

  datatype Error = Validation | NotFound | MultipleFound

  datatype Option<+T> = None | Some(value: T)

  datatype Result<+T> = Ok(value: T) | Err(error: Error) {

    predicate IsFailure() {
      Err?
    }

    function PropagateFailure<U>(): Result<U>
      requires Err?
    {
      Err(error)
    }

    function Extract(): T
      requires Ok?
    {
      value
    }
  }

  /** A check that passes or fails without producing a value. */
  datatype Outcome = Pass | Fail(error: Error)
}
